=== FILE: README.md ===
# Bookstore backend, modelled in Dafny

This project models the services behind the bookstore's REST API and the
client's error-message mapping:

- the shopping cart;
- checkout, which turns a cart into an order and takes the stock off the books;
- order status changes and order deletion, which puts the stock back;
- the book catalog with its discounts and derived final price;
- categories;
- user accounts;
- the wishlist;
- the JWT/roles guard in front of the routes.

The database is one `Db.Store` object. The user, category, book, cart
item and order tables are fields of type `map<nat, Row>` keyed by the
autoincrement id, and each has a `next…Id` counter. Order lines are held
inside their order row, and a user's address inside the user row (see
below). The wishlist is a set of (user, book) pairs. A set of
file names stands for the uploads directory. Each service is a module.
Its operations are methods that take the store, frame the tables they
write with `modifies db`table`, and state the new table contents in
`ensures`. Lookups and pure helpers are functions.

`Store.Valid()` holds the invariants every operation keeps:
- ids match their keys and stay below the counters;
- e-mail addresses are unique;
- every foreign key points at an existing row;
- a user has at most one cart line per book.

Errors are `Err(Error(kind, message))`, with the HTTP exception class as
`kind` and the exact message the service throws.

Modules and files:

- `outcomes.dfy` (`Outcomes`): `Option`, `Result`, the error kinds, and `Present` (JavaScript truthiness of an optional string).
- `tables.dfy` (`Tables`): the row types and the newest-first ordering of rows.
- `store.dfy` (`Db`): the store, its invariants, and the referenced-row predicates used by deletes.
- `order_stock.dfy` (`OrderStock`): order-line snapshot, order total, and the stock effect of placing and deleting an order, as functions with their lemmas.
- `order_service.dfy` (`OrderService`), `cart_service.dfy` (`CartService`), `book_service.dfy` (`BookService`), `category_service.dfy` (`CategoryService`), `users_service.dfy` (`UsersService`), `wishlist_service.dfy` (`WishlistService`): the services.
- `auth_guard.dfy` (`AuthGuard`): `canActivate` as a pure decision function.
- `api_error.dfy` (`ApiErrors`): the client's `handleApiError`, and how it renders service errors.

Modelling choices:

- **Money** is integer cents. `calculateFinalPrice` becomes exact arithmetic: price × (100 − discount) hundredths of a cent, rounded to whole cents with halves away from zero.
- **Stock** is an unbounded `int`. Checkout does not re-check it, so it may go negative. `OrderStock.CheckoutKeepsStockNonNegative` states when it stays non-negative.
- **`createdAt` ordering** (`orderBy: { createdAt: 'desc' }`) is modelled as descending id. Rows are created in id order.
- **Bcrypt** is symbolic. A stored hash is `Bcrypt(plain)`, and `bcrypt.compare` is `Matches`.
- **JWT verification** is the `verify` parameter of `AuthGuard.CanActivate`. It returns the payload or the library's refusal reason.
- **The clock** (`new Date()` in the password change) is the `now` parameter, in milliseconds.
- **Uploaded files** are the `file` parameter: the stored file name, or `None`.
- **Address** is its own table in the database (a one-to-one, optional relation to the user, read with `address.findFirst` in Backend/src/order/order.service.ts:24 and written by nested create and upsert). Here it is an `Option<Address>` column of the user row, so it is created, updated and deleted together with its user.
- **Order lines** (the `OrderItem` table) are the `items` sequence of their order row, in insertion order.
- **Referential actions.** The Prisma schema is not part of this model, so the actions are assumed:
  - OrderItem → Order and Address → User cascade: deleting an order deletes its lines (`OrderService.Remove`), and deleting a user deletes the address (`UsersService.DeleteUser`);
  - every other relation restricts: deleting a row that a cart line, an order, an order line, a wishlist entry or a book still references is refused with an Internal error (`Db.ForeignKeyViolation`), Prisma's default for required relations.
- **Column defaults.** A new user's role is USER unless the request gives one, and the account starts active (`isActive` true, no `passwordChangeAt`). These come from the schema's column defaults, which are assumed here; Backend/src/users/users.service.ts:38-49 only spreads the request into the new row.
- **Category names have no unique index.** `create` looks a taken name up with `findFirst` (Backend/src/category/category.service.ts:20-27), where the e-mail check uses `findUnique` on a unique column, and `update` (Backend/src/category/category.service.ts:68-83) writes a new name without any check. The model therefore assumes the database accepts a duplicate name, so `CategoryService.Update` always succeeds on an existing row and `CategoryService.UpdateCanDuplicateNames` shows a rename that duplicates a name. If the column were unique, such a rename would fail with an Internal error instead; that branch is not modelled.

## Model

| member | source | states |
|---|---|---|
| `Tables.IdsNewestFirst` | src/cart/cart.service.ts:51 | Exactly the ids of the set, each once, in strictly decreasing (newest-first) order |
| `OrderService.CreateOrderFromCart` | Backend/src/order/order.service.ts:21-77 | A missing user, a user without phone or address, and an empty cart each give their NotFound error and change no table. Otherwise it succeeds with a fresh PENDING order whose lines snapshot the cart at undiscounted prices and whose total is their sum. Stock drops by the ordered quantities, the user's cart lines are gone, and the invariants hold |
| `OrderService.PlaceOrder` | Backend/src/order/order.service.ts:49-74 | The writes of a checkout: the order inserted under the next id, the stock table equal to `Destock` of the old one, only the user's cart lines removed, invariants kept |
| `OrderService.InsertOrder` | Backend/src/order/order.service.ts:49-62 | The new order is stored under the next id, the counter advances, and every store invariant still holds |
| `OrderService.TakeStock` | Backend/src/order/order.service.ts:65-71 | The decrement loop leaves the book table equal to `Destock` of the old one and keeps every store invariant |
| `OrderService.PutBackStock` | Backend/src/order/order.service.ts:147-153 | The increment loop leaves the book table equal to `Restock` of the old one and keeps every store invariant |
| `OrderService.DestockKeepsConsistent` | Backend/src/order/order.service.ts:65-71 | Decrementing stock by any order lines keeps keys, counters and foreign keys of the whole database consistent |
| `OrderService.RestockKeepsConsistent` | Backend/src/order/order.service.ts:147-153 | Incrementing stock by any order lines keeps the whole database consistent |
| `OrderService.DecrementStock` | Backend/src/order/order.service.ts:65-71 | The per-line decrement loop leaves the book table equal to `Destock(old books, items)`: each book loses exactly its total ordered quantity, other books are unchanged |
| `OrderService.IncrementStock` | Backend/src/order/order.service.ts:147-153 | The per-line increment loop leaves the book table equal to `Restock(old books, items)` |
| `OrderService.UserLinesDistinct` | src/cart/cart.service.ts:28-41 | Under the store invariant the lines of one user's cart name pairwise different books |
| `OrderService.FindMyOrders` | Backend/src/order/order.service.ts:85-91 | Exactly the caller's orders, each as stored, newest first |
| `OrderService.FindOne` | Backend/src/order/order.service.ts:101-109 | Succeeds iff the order exists and belongs to the caller, with that order; otherwise "Order not found" |
| `OrderService.UpdateStatus` | Backend/src/order/order.service.ts:119-129 | Only the owner's order changes, and only its status; a foreign or missing order gives NotFound and changes nothing; stock is outside the frame |
| `OrderService.CancelOwnOrder` | Backend/src/order/order.controller.ts:52-58 | The user route always sets CANCELLED on the caller's own order and leaves stock as it is |
| `OrderService.Remove` | Backend/src/order/order.service.ts:138-157 | A missing order gives NotFound and changes nothing; otherwise every line's quantity goes back to its book (`Restock`) and exactly that order is deleted |
| `OrderService.CheckoutThenRemoveRestoresStock` | Backend/src/order/order.service.ts:148-153 | Placing an order and deleting it again leaves every book exactly as before |
| `OrderService.FindAllOrdersByUser` | Backend/src/order/order.service.ts:169-187 | "User not found" for a missing user, "No orders found for this user" when the user has none; an existing user with at least one order gets Ok with all and only that user's orders, each as stored, newest first |
| `OrderService.UpdateOrderStatusByAdmin` | Backend/src/order/order.service.ts:199-217 | Any status on any existing order, no other field changes; NotFound otherwise |
| `OrderService.FindAll` | Backend/src/order/order.service.ts:226-231 | Every order, each as stored, newest first |
| `OrderStock.Snapshot` | Backend/src/order/order.service.ts:55-59 | One order line per cart line with the same book and quantity and the book's current undiscounted price |
| `OrderStock.TotalAppend` | Backend/src/order/order.service.ts:43-46 | The price × quantity fold is additive over concatenation, so the total is the sum over the lines however they are split |
| `OrderStock.TotalPermutation` | Backend/src/order/order.service.ts:43-46 | Any rearrangement of the lines (same multiset) has the same total, so the total does not depend on the order the cart lines are read in |
| `OrderStock.TotalNonNegative` | Backend/src/order/order.service.ts:43-46 | Non-negative prices and quantities give a non-negative total |
| `OrderStock.QtyOfDistinct` | Backend/src/order/order.service.ts:66-71 | With one line per book, the quantity taken from a book is that line's quantity, or 0 if no line names it |
| `OrderStock.Destock` | Backend/src/order/order.service.ts:66-71 | Keeps every book and changes nothing but stock |
| `OrderStock.Restock` | Backend/src/order/order.service.ts:148-153 | Keeps every book and changes nothing but stock |
| `OrderStock.DestockStep` | Backend/src/order/order.service.ts:66-71 | One more loop iteration takes the line's quantity from its own book and changes no other book |
| `OrderStock.RestockStep` | Backend/src/order/order.service.ts:148-153 | One more loop iteration gives the line's quantity back to its own book and changes no other book |
| `OrderStock.RestockUndoesDestock` | Backend/src/order/order.service.ts:138-157 | Putting an order's quantities back restores the book table taken by placing it |
| `OrderStock.CheckoutKeepsStockNonNegative` | Backend/src/order/order.service.ts:66-71 | Stock stays non-negative after checkout when every cart line fits its book's stock and books are distinct |
| `CartService.FindAll` | src/cart/cart.service.ts:47-53 | Exactly the user's lines, each as stored, newest first |
| `CartService.AddItem` | src/cart/cart.service.ts:13-42 | A missing book and a quantity above stock fail and leave the cart unchanged; an existing line for the pair grows by the quantity; otherwise one new line is created; one line per (user, book) is preserved |
| `CartService.GrowLine` | src/cart/cart.service.ts:28-33 | The existing line grows by the requested quantity, nothing else in the cart changes, and the invariants hold |
| `CartService.InsertLine` | src/cart/cart.service.ts:36-41 | A new line with the next id is added for a pair that had none, keeping one line per (user, book) |
| `CartService.TwoAddsCanExceedStock` | src/cart/cart.service.ts:13-41 | From a cart without the pair, two adds of the same book that each fit its stock are both accepted, share one line, and leave that line's quantity above the stock |
| `CartService.UpdateItem` | src/cart/cart.service.ts:58-81 | NotFound unless the line is the caller's; a quantity above stock fails; otherwise only that line's quantity changes |
| `CartService.RemoveItem` | src/cart/cart.service.ts:86-94 | Deletes exactly the caller's line, NotFound for another user's or a missing line |
| `CartService.WithoutUser` | src/cart/cart.service.ts:100 | A line survives iff it belongs to another user, and survives unchanged |
| `CartService.ClearCart` | src/cart/cart.service.ts:99-102 | Removes all of the user's lines and no other line |
| `CartService.ClearCartIdempotent` | src/cart/cart.service.ts:99-102 | Clearing twice equals clearing once |
| `BookService.RoundToCents` | Backend/src/book/book.service.ts:241 | The result is within half a cent of the exact value, halves rounded away from zero |
| `BookService.RoundToCentsMonotone` | Backend/src/book/book.service.ts:241 | Rounding preserves order |
| `BookService.CalculateFinalPrice` | Backend/src/book/book.service.ts:238-242 | The result is price × (100 − discount) / 100 rounded to whole cents, within half a cent of the exact value with halves away from zero (a missing discount counts as 0); so no or zero discount gives the price, 100% gives 0, and a 0–100 discount on a non-negative price gives a value between 0 and the price |
| `BookService.FinalPriceMonotone` | Backend/src/book/book.service.ts:238-242 | A larger discount never gives a larger final price |
| `BookService.View` | Backend/src/book/book.service.ts:61-65 | The row plus its final price, which is `CalculateFinalPrice` of the row's price and discount: within [0, price] for a 0–100 discount, equal to the price without discount |
| `BookService.Reconnect` | Backend/src/book/book.service.ts:117 | The category is reconnected iff `categoryId` is given and non-zero (truthy) |
| `BookService.Patched` | Backend/src/book/book.service.ts:115-119 | Same id; each of title, author, description, price, stock and discount takes the sent value when present and keeps the old one when absent; cover replaced only when a file is uploaded; category changed only on a truthy `categoryId` |
| `BookService.EmptyBookPatchKeepsRow` | Backend/src/book/book.service.ts:93-127 | An update with no field and no file writes the row back unchanged |
| `BookService.Create` | Backend/src/book/book.service.ts:23-50 | No file gives BadRequest, a missing category NotFound, both add nothing; otherwise exactly one new book under the next id |
| `BookService.FindAll` | Backend/src/book/book.service.ts:55-66 | Every book and only those, each unchanged and with the final price `calculateFinalPrice` derives from its price and discount (`View`) |
| `BookService.FindOne` | Backend/src/book/book.service.ts:72-84 | The book with its derived final price (`View`) iff it exists; "Book not found" otherwise |
| `BookService.Update` | Backend/src/book/book.service.ts:93-127 | NotFound changes nothing; the old cover is deleted only when a file is uploaded; a missing target category fails after that deletion without writing the row; otherwise only that row changes, to `Patched` |
| `BookService.Remove` | Backend/src/book/book.service.ts:133-151 | NotFound changes nothing; otherwise the cover file is deleted, then the row is deleted unless other rows still reference it |
| `BookService.FindBooksByCategory` | Backend/src/book/book.service.ts:157-172 | Exactly the books of the category, each with its derived final price; NotFound iff there are none |
| `BookService.UpdateBookDiscount` | Backend/src/book/book.service.ts:179-195 | Only that book's discount changes; the returned final price lies in [0, price]; NotFound otherwise |
| `BookService.UpdateAllBooksDiscount` | Backend/src/book/book.service.ts:202-208 | Every book gets the discount and nothing else changes |
| `BookService.ClearBookDiscount` | Backend/src/book/book.service.ts:215-223 | Only that book's discount becomes 0 and the returned final price equals its price; NotFound otherwise |
| `BookService.ClearAllBooksDiscount` | Backend/src/book/book.service.ts:228-233 | Every book's discount becomes 0 and nothing else changes |
| `CategoryService.Create` | Backend/src/category/category.service.ts:19-34 | A taken name gives BadRequest and adds nothing; otherwise exactly one category is added and unique names stay unique |
| `CategoryService.FindAll` | Backend/src/category/category.service.ts:40-42 | All categories, unchanged |
| `CategoryService.FindOne` | Backend/src/category/category.service.ts:49-60 | The category with exactly its books iff it exists; NotFound otherwise |
| `CategoryService.PatchCategory` | Backend/src/category/category.service.ts:77-80 | Same id; a given name or description replaces the old one, a missing one keeps it |
| `CategoryService.Update` | Backend/src/category/category.service.ts:68-83 | NotFound changes nothing; otherwise only that category changes |
| `CategoryService.UpdateCanDuplicateNames` | Backend/src/category/category.service.ts:68-83 | Without a name check, an update can leave two categories with the same name |
| `CategoryService.Remove` | Backend/src/category/category.service.ts:90-104 | NotFound for a missing id; refused while books reference it; otherwise exactly that category is removed |
| `UsersService.RemovePassword` | Backend/src/users/users.service.ts:254-258 | Every column but the password is kept |
| `UsersService.RemovePasswordForgetsPassword` | Backend/src/users/users.service.ts:254-258 | Two users look the same after removal iff they differ at most in the password |
| `UsersService.EmailChangeRefusedIffOtherOwner` | Backend/src/users/users.service.ts:100-106 | With unique e-mails, an e-mail change is refused iff another user holds the new address; keeping one's own is allowed |
| `UsersService.UpsertAddress` | Backend/src/users/users.service.ts:114-116 | Without a saved address the given one is created; otherwise the given fields overwrite, and optional fields left out keep their saved values |
| `UsersService.ApplyPatch` | Backend/src/users/users.service.ts:108-119 | Same id, password, active flag and password-change time; a given e-mail, name, phone or role replaces the old value and a missing one keeps it; the address is upserted only when supplied |
| `UsersService.EmptyPatchIsIdentity` | Backend/src/users/users.service.ts:108-119 | An empty update changes nothing |
| `UsersService.PatchKeepsEmailsUnique` | Backend/src/users/users.service.ts:100-119 | An update that passed the duplicate check keeps e-mails unique |
| `UsersService.CreateUser` | Backend/src/users/users.service.ts:27-55 | A taken e-mail gives BadRequest and adds no user; otherwise one user with the hashed password (which `Matches` the plain one), role USER unless given, active, the address only if provided; the answer has no password |
| `UsersService.FindAll` | Backend/src/users/users.service.ts:63-69 | Every user without password; NotFound iff the table is empty |
| `UsersService.FindOne` | Backend/src/users/users.service.ts:77-84 | The user without password iff it exists; "User not found" otherwise |
| `UsersService.UpdateUser` | Backend/src/users/users.service.ts:93-125 | NotFound for a missing user; BadRequest when the new e-mail belongs to someone else; otherwise only that row changes, to `ApplyPatch` |
| `UsersService.DeleteUser` | Backend/src/users/users.service.ts:131-137 | NotFound for a missing user; refused while rows reference the user; otherwise exactly that user is removed |
| `UsersService.GetLoggedUserData` | Backend/src/users/users.service.ts:144-152 | The caller's row without password iff it exists; Unauthorized "User not found in DB" otherwise |
| `UsersService.PasswordRequestError` | Backend/src/users/users.service.ts:161-169 | No user on the request, a missing/empty password and one shorter than 6 are refused with their messages, and nothing else is |
| `UsersService.UpdateLoggedUserPassword` | Backend/src/users/users.service.ts:160-190 | The request checks, then a password equal to the old one is refused; on success only the caller's password (now matching the new one and no longer the old) and `passwordChangeAt := now` change |
| `UsersService.UpdateLoggedUserData` | Backend/src/users/users.service.ts:197-230 | Unauthorized without a request user or DB row; Conflict when the new e-mail is someone else's; otherwise only the caller's row changes, to `ApplyPatch` |
| `UsersService.DeleteLoggedUserAccount` | Backend/src/users/users.service.ts:236-249 | Only `isActive` becomes false on the caller's row; nothing is deleted |
| `WishlistService.Create` | src/wishlist/wishlist.service.ts:18-42 | Succeeds iff the book and user exist and the pair is new, adding exactly that pair; every failure is the same Conflict and adds nothing |
| `WishlistService.FindAll` | src/wishlist/wishlist.service.ts:47-52 | Exactly the caller's entries |
| `WishlistService.FindOne` | src/wishlist/wishlist.service.ts:57-64 | The entry iff the pair is on the list; "Wishlist item not found" otherwise |
| `WishlistService.Remove` | src/wishlist/wishlist.service.ts:69-77 | Removes exactly that pair; NotFound and no change when absent |
| `WishlistService.CreateThenRemove` | src/wishlist/wishlist.service.ts:18-77 | Adding a new pair and removing it restores the wishlist |
| `AuthGuard.FirstField` | Backend/src/auth/guard/auth.guard.ts:30 | The longest space-free prefix of the text |
| `AuthGuard.BearerToken` | Backend/src/auth/guard/auth.guard.ts:29-31 | A token exists iff the header starts with "Bearer ", and it is the longest space-free text right after the prefix (the next character, if any, is a space) |
| `AuthGuard.BearerTokenRoundTrip` | Backend/src/auth/guard/auth.guard.ts:29-34 | "Bearer " followed by a space-free token yields that token |
| `AuthGuard.CanActivate` | Backend/src/auth/guard/auth.guard.ts:22-84 | Every refusal is Unauthorized, with the verifier's reason or the guard's own message ("No token provided", the header-format, "User not found", permission, password-change and "User is inactive" messages) at the check that fails; acceptance attaches exactly the user named by a verified token; a role-gated route accepts iff the user exists, has a listed role, holds a token not older than the last password change and is active; a route without roles accepts iff the token is verified for an existing user |
| `AuthGuard.PasswordChangeRevokesOlderTokens` | Backend/src/auth/guard/auth.guard.ts:65-74 | After a password change at `now`, a token issued before that second is refused on role-gated routes |
| `AuthGuard.TokenWithoutIatPasses` | Backend/src/auth/guard/auth.guard.ts:65-80 | A token without `iat` is not refused by the password-change check: an active user with a listed role is admitted |
| `AuthGuard.DeactivatedUserLockedOut` | Backend/src/auth/guard/auth.guard.ts:52-77 | An inactive user is refused on every role-gated route and still accepted on routes without roles |
| `ApiErrors.StatusText` | frontend/src/utils/handleApiError.ts:14-29 | Each of 400, 401, 403, 404, 409 and 500 gets its own fixed text; the fallback text is used exactly for every other status and for none |
| `ApiErrors.HandleApiError` | frontend/src/utils/handleApiError.ts:3-33 | A non-empty server message wins whatever the status; otherwise the status text; non-Axios errors get the connectivity text; never empty |
| `ApiErrors.StatusTextsDistinct` | frontend/src/utils/handleApiError.ts:14-26 | The six known statuses have six different texts, none the fallback |
| `ApiErrors.NoResponseGetsUnexpectedText` | frontend/src/utils/handleApiError.ts:5-28 | An Axios error without a response gets the generic text, not the connectivity text |
| `ApiErrors.ServiceErrorShown` | frontend/src/utils/handleApiError.ts:9-12 | A non-internal service error reaches the user as its own message, or as its status text when the message is empty |

## Left out

- The HTTP layer is not modelled: controllers, routing, DTO validation decorators, and the success `message` strings the services return beside their data. DTO constraints appear only as `requires`:
  - cart quantity ≥ 1;
  - password length ≥ 6 and name length 2–50 on create;
  - discount 0–100;
  - a non-empty e-mail in updates.
- Records joined in by `include` are not materialised in results: a cart line's book, an order line's book, a book's category, a category's books. A book's category appears only as its id, and a category's books only as a set of ids.
- `CartService.FindAll`, `OrderService.FindMyOrders`, `OrderService.FindAll`, `OrderService.FindAllOrdersByUser`: ordering by `createdAt` is stated as ordering by id. Rows created in the same millisecond are not distinguished.
- `BookService.CalculateFinalPrice`: computed exactly on integer cents. Floating-point `Number`/`toFixed(2)` effects are not modelled.
- `OrderService.CreateOrderFromCart`: the order total is the exact sum in cents. The source's `reduce` adds JavaScript floating-point numbers (`price.toNumber() * quantity`), whose rounding is not modelled.
- `OrderService.CreateOrderFromCart`: the cart lines are read with `findMany` without `orderBy`, so the database decides their order. The model fixes it to newest first (the order of `CartService.FindAll`), which fixes the order of the order lines; the total does not depend on it (`OrderStock.TotalPermutation`).
- The update DTOs for cart, user (both the admin and the self-service variant), category and book are not part of this model. They are taken as:
  - cart: quantity only;
  - user: the optional fields of the create-user DTO without the password;
  - category: name and description;
  - book: the optional columns of the create-book DTO.
- `CartService.UpdateItem`: the source's "Book not found" branch cannot be reached while the store keeps its foreign keys, so the model has no such branch.
- `UsersService.UpdateLoggedUserPassword`: password length is counted in characters, not UTF-16 code units. Bcrypt's 72-byte truncation is not modelled.
- `UsersService.RemovePassword`: the `null` input branch is left out; every caller passes a user row.
- `UsersService.GetLoggedUserData`: the request user is taken as always present. The guard attaches it on every route that reaches this call.
- `ApiErrors.HandleApiError`: a server `message` that is not a string (for example the array of validation messages) is not modelled.
- `OrderService.CheckoutThenRemoveRestoresStock` states only that the book table is restored. The order table keeps the counter advance; other tables are not restated.
- The wishlist row's own `id` column is not modelled. Rows are identified by their (user, book) pair, which is the unique key every operation uses.
- File existence checks (`existsSync`) and the uploads directory beyond the set of file names are left out.
- `BookService.Create`, `BookService.Update`: the uploaded cover is written to the uploads directory by the upload middleware before the service runs, and that write is not modelled. `db.files` records only the deletions the services make, so it is not the full contents of the directory.
- Token signature and expiry checks (JWT) and bcrypt hashing are not modelled; they enter as parameters and symbolic values.
- Transactions and concurrency are not modelled. Every service call is one sequential step, and nothing about interleavings or atomicity is claimed.
- Internal (HTTP 500) errors carry a message describing their cause. NestJS sends the generic "Internal server error" body instead, as `ApiErrors.Response` states.

=== FILE: api_error.dfy ===
/**
 * The client's error-to-message mapping
 * (frontend/src/utils/handleApiError.ts), and how it renders the errors
 * the backend services raise.
 *
 * An Axios error carries the HTTP status and the response body's
 * `message` when there was a response; both are absent when the request
 * never got one. Anything else thrown is `OtherError`.
 */
module ApiErrors {
  import opened Outcomes

  datatype ApiError =
    | AxiosError(status: Option<int>, message: Option<string>)
    | OtherError

  const BadRequestText := "طلب غير صالح. تأكد من البيانات المدخلة."
  const UnauthorizedText := "يجب تسجيل الدخول لإتمام هذه العملية."
  const ForbiddenText := "ليس لديك صلاحية للوصول إلى هذا المورد."
  const NotFoundText := "العنصر المطلوب غير موجود أو لم يتم العثور عليه."
  const ConflictText := "حدث تعارض في البيانات. ربما تم إرسال الطلب مسبقًا."
  const ServerErrorText := "حدث خطأ داخلي في الخادم. حاول لاحقًا."
  const UnexpectedText := "حدث خطأ غير متوقع. حاول مرة أخرى."
  const ConnectivityText := "حدث خطأ أثناء تنفيذ العملية. تحقق من الاتصال بالإنترنت."

  /** The statuses that have a message of their own. */
  predicate KnownStatus(status: int)
  {
    status == 400 || status == 401 || status == 403 || status == 404 || status == 409 || status == 500
  }

  /** The `switch` on the status. */
  function StatusText(status: Option<int>): (m: string)
    ensures status.Some? && KnownStatus(status.value) <==> m != UnexpectedText
    ensures status == Some(400) ==> m == BadRequestText
    ensures status == Some(401) ==> m == UnauthorizedText
    ensures status == Some(403) ==> m == ForbiddenText
    ensures status == Some(404) ==> m == NotFoundText
    ensures status == Some(409) ==> m == ConflictText
    ensures status == Some(500) ==> m == ServerErrorText
  {
    if status == Some(400) then BadRequestText
    else if status == Some(401) then UnauthorizedText
    else if status == Some(403) then ForbiddenText
    else if status == Some(404) then NotFoundText
    else if status == Some(409) then ConflictText
    else if status == Some(500) then ServerErrorText
    else UnexpectedText
  }

  /** `handleApiError`: the server's own message when it sent a non-empty
      one, else the text for the status, and the connectivity text for
      errors that do not come from Axios. Total: every error gets a
      non-empty message. */
  function HandleApiError(e: ApiError): (m: string)
    ensures e.AxiosError? && Present(e.message) ==> m == e.message.value
    ensures e.AxiosError? && !Present(e.message) ==> m == StatusText(e.status)
    ensures e.OtherError? ==> m == ConnectivityText
    ensures m != ""
  {
    match e
    case AxiosError(status, message) =>
      if Present(message) then message.value else StatusText(status)
    case OtherError => ConnectivityText
  }

  /** The six known statuses get six different texts, none of which is the
      fallback. */
  lemma StatusTextsDistinct(s: int, t: int)
    requires KnownStatus(s) && KnownStatus(t) && s != t
    ensures StatusText(Some(s)) != StatusText(Some(t))
    ensures StatusText(Some(s)) != UnexpectedText
  {
  }

  /** A request that got no response at all is still an Axios error, so it
      is shown the generic "unexpected" text, not the connectivity text. */
  lemma NoResponseGetsUnexpectedText()
    ensures HandleApiError(AxiosError(None, None)) == UnexpectedText
    ensures HandleApiError(AxiosError(None, None)) != ConnectivityText
  {
  }

  /** The HTTP status NestJS sends for each kind of exception the services
      throw. */
  function StatusOf(kind: ErrorKind): (status: int)
    ensures KnownStatus(status)
  {
    match kind
    case BadRequest => 400
    case Unauthorized => 401
    case NotFound => 404
    case Conflict => 409
    case Internal => 500
  }

  /** The response the client sees for a service error. An error that is
      not an HTTP exception reaches the client as NestJS's generic
      "Internal server error" body. */
  function Response(e: Error): (a: ApiError)
    ensures a.AxiosError? && a.status == Some(StatusOf(e.kind))
    ensures e.kind != Internal ==> a.message == Some(e.message)
  {
    AxiosError(Some(StatusOf(e.kind)), Some(if e.kind == Internal then "Internal server error" else e.message))
  }

  /** A service error with a message is shown to the user as that message;
      only an empty one falls back to the text of its status. */
  lemma {:induction false} ServiceErrorShown(e: Error)
    requires e.kind != Internal
    ensures e.message != "" ==> HandleApiError(Response(e)) == e.message
    ensures e.message == "" ==> HandleApiError(Response(e)) == StatusText(Some(StatusOf(e.kind)))
    ensures HandleApiError(Response(e)) != UnexpectedText || e.message == UnexpectedText
  {
    var a := Response(e);
    assert a.message == Some(e.message);
  }
}

=== FILE: auth_guard.dfy ===
/**
 * The access guard (Backend/src/auth/guard/auth.guard.ts,
 * `JwtRolesGuard.canActivate`), as a decision over the request's
 * `Authorization` header, the token verifier, the user table and the
 * roles the route declares.
 *
 * On acceptance the guard attaches the looked-up user to the request
 * (`request['InfUser']`); here the result carries that user. Token
 * signature and expiry checking belong to the JWT library and enter as
 * the `verify` parameter. Every refusal is an Unauthorized error.
 */
module AuthGuard {
  import opened Outcomes
  import opened Tables

  /** The payload fields the guard reads: `userId` and the optional `iat`
      (issued-at, in seconds). */
  datatype Claims = Claims(userId: nat, iat: Option<int>)

  /** What `jwtService.verify` gives: the payload, or the library's reason
      for refusing the token. */
  datatype Verified = Accepted(claims: Claims) | Refused(reason: string)

  const Prefix := "Bearer "

  predicate StartsWithBearer(h: string)
  {
    |h| >= |Prefix| && h[..|Prefix|] == Prefix
  }

  /** The text up to the first space: `s.split(' ')[0]`. */
  function FirstField(s: string): (r: string)
    ensures ' ' !in r
    ensures |r| <= |s| && r == s[..|r|]
    ensures |r| < |s| ==> s[|r|] == ' '
    decreases |s|
  {
    if |s| == 0 || s[0] == ' ' then ""
    else
      var rest := FirstField(s[1..]);
      assert s[1..][..|rest|] == s[1..|rest| + 1];
      [s[0]] + rest
  }

  /** `authHeader.split(' ')[1]` for a header that starts with "Bearer ":
      the field after the first space. */
  function BearerToken(h: string): (t: Option<string>)
    ensures t.Some? <==> StartsWithBearer(h)
    ensures t.Some? ==> ' ' !in t.value
    ensures t.Some? ==> |Prefix| + |t.value| <= |h| && t.value == h[|Prefix|..|Prefix| + |t.value|]
    ensures t.Some? && |Prefix| + |t.value| < |h| ==> h[|Prefix| + |t.value|] == ' '
  {
    if StartsWithBearer(h) then
      var field := FirstField(h[|Prefix|..]);
      assert h[|Prefix|..][..|field|] == h[|Prefix|..|Prefix| + |field|];
      Some(field)
    else None
  }

  /** A header built from a token without spaces gives that token back. */
  lemma {:induction false} BearerTokenRoundTrip(token: string)
    requires ' ' !in token
    ensures BearerToken(Prefix + token) == Some(token)
  {
    var h := Prefix + token;
    assert h[..|Prefix|] == Prefix;
    assert h[|Prefix|..] == token;
    forall i | 0 <= i < |token| ensures token[i] != ' ' {
      assert token[i] in token;
    }
    assert FirstField(token) == token;
  }

  /** The `passwordChangeAt` check: the token has a truthy `iat` that is
      older than the change, taken in whole seconds
      (`Math.floor(ms / 1000)`; Dafny's division by a positive divisor
      rounds toward minus infinity as well). */
  predicate IssuedBeforePasswordChange(iat: Option<int>, passwordChangeAt: Option<int>)
  {
    passwordChangeAt.Some? && iat.Some? && iat.value != 0 && iat.value < passwordChangeAt.value / 1000
  }

  /** The route declares at least one role. */
  predicate RoleGated(roles: Option<seq<UserRole>>)
  {
    roles.Some? && |roles.value| > 0
  }

  function Deny(message: string): Result<User>
  {
    Err(Error(Unauthorized, message))
  }

  /** `canActivate`. The token is verified before the user is looked up;
      routes without roles skip the role, password-change and active
      checks. */
  function CanActivate(
    header: Option<string>,
    verify: string -> Verified,
    users: map<nat, User>,
    roles: Option<seq<UserRole>>): (r: Result<User>)
    ensures r.Err? ==> r.error.kind == Unauthorized
    ensures !Present(header) ==> r == Deny("No token provided")
    ensures Present(header) && !Present(BearerToken(header.value)) ==>
      r == Deny("Invalid authorization header format")
    ensures r.Ok? ==>
      && Present(header) && StartsWithBearer(header.value)
      && Present(BearerToken(header.value))
      && verify(BearerToken(header.value).value).Accepted?
      && var c := verify(BearerToken(header.value).value).claims;
         c.userId in users && r.value == users[c.userId]
    ensures r.Ok? && RoleGated(roles) ==>
      && r.value.role in roles.value
      && r.value.isActive
      && !IssuedBeforePasswordChange(verify(BearerToken(header.value).value).claims.iat, r.value.passwordChangeAt)
    ensures !RoleGated(roles) ==>
      (r.Ok? <==>
        && Present(header) && Present(BearerToken(header.value))
        && verify(BearerToken(header.value).value).Accepted?
        && verify(BearerToken(header.value).value).claims.userId in users)
    ensures RoleGated(roles) ==>
      (r.Ok? <==>
        && Present(header) && Present(BearerToken(header.value))
        && verify(BearerToken(header.value).value).Accepted?
        && var c := verify(BearerToken(header.value).value).claims;
           && c.userId in users
           && users[c.userId].role in roles.value
           && !IssuedBeforePasswordChange(c.iat, users[c.userId].passwordChangeAt)
           && users[c.userId].isActive)
    ensures Present(header) && Present(BearerToken(header.value)) ==>
      var v := verify(BearerToken(header.value).value);
      && (v.Refused? ==> r == Deny(v.reason))
      && (v.Accepted? && v.claims.userId !in users ==> r == Deny("User not found"))
      && (v.Accepted? && v.claims.userId in users && RoleGated(roles) ==>
            var u := users[v.claims.userId];
            && (u.role !in roles.value ==> r == Deny("You do not have permission to access this resource"))
            && (u.role in roles.value && IssuedBeforePasswordChange(v.claims.iat, u.passwordChangeAt) ==>
                  r == Deny("Password has been changed, please log in again"))
            && (u.role in roles.value && !IssuedBeforePasswordChange(v.claims.iat, u.passwordChangeAt) && !u.isActive ==>
                  r == Deny("User is inactive")))
  {
    if !Present(header) then Deny("No token provided")
    else
      var token := BearerToken(header.value);
      if !Present(token) then Deny("Invalid authorization header format")
      else match verify(token.value)
        case Refused(reason) => Deny(reason)
        case Accepted(c) =>
          if c.userId !in users then Deny("User not found")
          else
            var user := users[c.userId];
            if !RoleGated(roles) then Ok(user)
            else if user.role !in roles.value then Deny("You do not have permission to access this resource")
            else if IssuedBeforePasswordChange(c.iat, user.passwordChangeAt) then
              Deny("Password has been changed, please log in again")
            else if !user.isActive then Deny("User is inactive")
            else Ok(user)
  }

  /** After a password change at `now` (milliseconds), a token issued
      before that second no longer passes a role-gated route, whatever
      else is true of the user. */
  lemma PasswordChangeRevokesOlderTokens(
    header: string, verify: string -> Verified, users: map<nat, User>, roles: seq<UserRole>,
    id: nat, plain: string, now: int)
    requires id in users && users[id].role in roles
    requires Present(BearerToken(header)) && verify(BearerToken(header).value).Accepted?
    requires var c := verify(BearerToken(header).value).claims;
      c.userId == id && c.iat.Some? && 0 < c.iat.value < now / 1000
    ensures var users' := users[id := users[id].(password := Bcrypt(plain), passwordChangeAt := Some(now))];
      CanActivate(Some(header), verify, users', Some(roles)) == Deny("Password has been changed, please log in again")
  {
  }

  /** A token without `iat` is never refused by the password-change check:
      an active user whose role the route lists is admitted with it. */
  lemma TokenWithoutIatPasses(
    header: string, verify: string -> Verified, users: map<nat, User>, roles: seq<UserRole>, id: nat)
    requires id in users && users[id].role in roles && users[id].isActive
    requires Present(BearerToken(header)) && verify(BearerToken(header).value) == Accepted(Claims(id, None))
    ensures CanActivate(Some(header), verify, users, Some(roles)) == Ok(users[id])
  {
  }

  /** A deactivated account is locked out of every role-gated route, but
      routes without roles still accept it. */
  lemma DeactivatedUserLockedOut(
    header: string, verify: string -> Verified, users: map<nat, User>, roles: Option<seq<UserRole>>, id: nat)
    requires id in users && !users[id].isActive
    requires Present(BearerToken(header)) && verify(BearerToken(header).value).Accepted?
    requires verify(BearerToken(header).value).claims.userId == id
    ensures RoleGated(roles) ==> CanActivate(Some(header), verify, users, roles).Err?
    ensures !RoleGated(roles) ==>
      CanActivate(Some(header), verify, users, roles) == Ok(users[id])
  {
  }
}

=== FILE: book_service.dfy ===
/**
 * The catalog: books, their discounts and the derived final price
 * (Backend/src/book/book.service.ts).
 *
 * Prices are integer cents. `calculateFinalPrice` computes
 * price * (1 - discount / 100) and rounds it to two decimals; here that is
 * price * (100 - discount) hundredths of a cent rounded to whole cents,
 * halves away from zero, which is what `toFixed(2)` does on an exact decimal.
 */
module BookService {
  import opened Outcomes
  import opened Tables
  import opened Db

  /** Rounds `hundredths` (hundredths of a cent) to whole cents, ties away
      from zero. The two ensures together determine `r` uniquely. */
  function RoundToCents(hundredths: int): (r: int)
    ensures hundredths >= 0 ==> -50 < 100 * r - hundredths <= 50
    ensures hundredths < 0 ==> -50 <= 100 * r - hundredths < 50
  {
    if hundredths >= 0 then (hundredths + 50) / 100 else -((-hundredths + 50) / 100)
  }

  lemma RoundToCentsMonotone(m: int, n: int)
    requires m <= n
    ensures RoundToCents(m) <= RoundToCents(n)
  {
  }

  /** `calculateFinalPrice(price, discount)`: a missing discount counts as 0. */
  function CalculateFinalPrice(price: int, discount: Option<int>): (r: int)
    ensures discount.None? || discount == Some(0) ==> r == price
    ensures discount == Some(100) ==> r == 0
    ensures 0 <= price && discount.Some? && 0 <= discount.value <= 100 ==> 0 <= r <= price
    ensures var exact := price * (100 - (if discount.Some? then discount.value else 0));
      && (exact >= 0 ==> -50 < 100 * r - exact <= 50)
      && (exact < 0 ==> -50 <= 100 * r - exact < 50)
  {
    var percent := if discount.Some? then discount.value else 0;
    var rounded := RoundToCents(price * (100 - percent));
    // one formula for every input; the test only decides whether the bound
    // on the unrounded product, which the third ensures needs, applies
    if 0 <= price && 0 <= percent <= 100 then BoundedDiscount(price, percent); rounded
    else rounded
  }

  lemma BoundedDiscount(price: int, percent: int)
    requires 0 <= price && 0 <= percent <= 100
    ensures 0 <= price * (100 - percent) <= 100 * price
  {
    assert price * (100 - percent) == 100 * price - price * percent;
    assert price * percent >= 0;
  }

  /** A larger discount never gives a larger final price. */
  lemma {:induction false} FinalPriceMonotone(price: int, d1: int, d2: int)
    requires 0 <= price && d1 <= d2
    ensures CalculateFinalPrice(price, Some(d2)) <= CalculateFinalPrice(price, Some(d1))
  {
    assert price * (100 - d2) == price * (100 - d1) - price * (d2 - d1);
    assert price * (d2 - d1) >= 0;
    RoundToCentsMonotone(price * (100 - d2), price * (100 - d1));
  }

  /** A book as the read endpoints return it: the row plus `finalPrice`. */
  datatype BookView = BookView(book: Book, finalPrice: int)

  function View(b: Book): (v: BookView)
    ensures v.book == b
    ensures v.finalPrice == CalculateFinalPrice(b.price, Some(b.discount))
    ensures b.price >= 0 && 0 <= b.discount <= 100 ==> 0 <= v.finalPrice <= b.price
    ensures b.discount == 0 ==> v.finalPrice == b.price
  {
    BookView(b, CalculateFinalPrice(b.price, Some(b.discount)))
  }

  /** The fields of `CreateBookDto`. */
  datatype NewBook = NewBook(
    title: string,
    author: string,
    description: string,
    price: int,
    stock: int,
    discount: int,
    categoryId: nat)

  /** The optional fields of the update DTO; `None` leaves a column as it is. */
  datatype BookPatch = BookPatch(
    title: Option<string>,
    author: Option<string>,
    description: Option<string>,
    price: Option<int>,
    stock: Option<int>,
    discount: Option<int>,
    categoryId: Option<nat>)

  /** The category id the update connects to, if any: only a truthy
      (non-zero) `categoryId` is used. */
  function Reconnect(p: BookPatch): (c: Option<nat>)
    ensures c.Some? <==> p.categoryId.Some? && p.categoryId.value != 0
    ensures c.Some? ==> c == p.categoryId
  {
    if p.categoryId.Some? && p.categoryId.value != 0 then p.categoryId else None
  }

  /** The row after `update`: patched columns, a new category only when
      `Reconnect` gives one, a new cover only when a file was uploaded. */
  function Patched(b: Book, p: BookPatch, file: Option<string>): (r: Book)
    ensures r.id == b.id
    ensures r.coverImage == (if file.Some? then file.value else b.coverImage)
    ensures r.categoryId == (if Reconnect(p).Some? then Reconnect(p).value else b.categoryId)
    ensures p.title.Some? ==> r.title == p.title.value
    ensures p.title.None? ==> r.title == b.title
    ensures p.author.Some? ==> r.author == p.author.value
    ensures p.author.None? ==> r.author == b.author
    ensures p.description.Some? ==> r.description == p.description.value
    ensures p.description.None? ==> r.description == b.description
    ensures p.price.Some? ==> r.price == p.price.value
    ensures p.price.None? ==> r.price == b.price
    ensures p.stock.Some? ==> r.stock == p.stock.value
    ensures p.stock.None? ==> r.stock == b.stock
    ensures p.discount.Some? ==> r.discount == p.discount.value
    ensures p.discount.None? ==> r.discount == b.discount
  {
    Book(
      b.id,
      if p.title.Some? then p.title.value else b.title,
      if p.author.Some? then p.author.value else b.author,
      if p.description.Some? then p.description.value else b.description,
      if p.price.Some? then p.price.value else b.price,
      if p.stock.Some? then p.stock.value else b.stock,
      if p.discount.Some? then p.discount.value else b.discount,
      if Reconnect(p).Some? then Reconnect(p).value else b.categoryId,
      if file.Some? then file.value else b.coverImage)
  }

  /** An update that sends no field and no file leaves the row as it is. */
  lemma EmptyBookPatchKeepsRow(b: Book)
    ensures Patched(b, BookPatch(None, None, None, None, None, None, None), None) == b
  {
  }

  const BookNotFound := Error(NotFound, "Book not found")

  /** `create`: needs an uploaded cover and an existing category. */
  method Create(db: Store, dto: NewBook, file: Option<string>) returns (r: Result<BookView>)
    requires db.Valid()
    modifies db`books, db`nextBookId
    ensures db.Valid()
    ensures file.None? ==> r == Err(Error(BadRequest, "Cover image is required"))
    ensures file.Some? && dto.categoryId !in db.categories ==> r == Err(Error(NotFound, "Category not found"))
    ensures r.Err? ==> db.books == old(db.books) && db.nextBookId == old(db.nextBookId)
    ensures file.Some? && dto.categoryId in db.categories ==>
      var b := Book(old(db.nextBookId), dto.title, dto.author, dto.description, dto.price,
                    dto.stock, dto.discount, dto.categoryId, file.value);
      && r == Ok(View(b))
      && b.id !in old(db.books)
      && db.books == old(db.books)[b.id := b]
      && db.nextBookId == old(db.nextBookId) + 1
  {
    if file.None? {
      return Err(Error(BadRequest, "Cover image is required"));
    }
    if dto.categoryId !in db.categories {
      return Err(Error(NotFound, "Category not found"));
    }
    var b := Book(db.nextBookId, dto.title, dto.author, dto.description, dto.price,
                  dto.stock, dto.discount, dto.categoryId, file.value);
    db.books := db.books[b.id := b];
    db.nextBookId := db.nextBookId + 1;
    r := Ok(View(b));
  }

  /** `findAll`: every book with its final price. */
  function FindAll(db: Store): (r: map<nat, BookView>)
    reads db
    ensures r.Keys == db.books.Keys
    ensures forall k :: k in r ==> r[k] == View(db.books[k])
  {
    map k | k in db.books :: View(db.books[k])
  }

  /** `findOne`. */
  function FindOne(db: Store, id: nat): (r: Result<BookView>)
    reads db
    ensures r.Ok? <==> id in db.books
    ensures r.Ok? ==> r.value == View(db.books[id])
    ensures r.Err? ==> r.error == BookNotFound
  {
    if id in db.books then Ok(View(db.books[id])) else Err(BookNotFound)
  }

  /** `update`. The old cover file is deleted before the row is written, so
      a failing reconnect to a missing category has already removed it. */
  method Update(db: Store, id: nat, patch: BookPatch, file: Option<string>) returns (r: Result<BookView>)
    requires db.Valid()
    modifies db`books, db`files
    ensures db.Valid()
    ensures id !in old(db.books) ==> r == Err(BookNotFound) && db.files == old(db.files)
    ensures id in old(db.books) ==>
      db.files == (if file.Some? && old(db.books)[id].coverImage != ""
                   then old(db.files) - {old(db.books)[id].coverImage} else old(db.files))
    ensures id in old(db.books) && Reconnect(patch).Some? && Reconnect(patch).value !in db.categories ==>
      r.Err? && r.error.kind == Internal
    ensures r.Err? ==> db.books == old(db.books)
    ensures id in old(db.books) && (Reconnect(patch).None? || Reconnect(patch).value in db.categories) ==>
      var b := Patched(old(db.books)[id], patch, file);
      r == Ok(View(b)) && db.books == old(db.books)[id := b]
  {
    if id !in db.books {
      return Err(BookNotFound);
    }
    var book := db.books[id];
    if file.Some? && book.coverImage != "" {
      db.files := db.files - {book.coverImage};
    }
    var target := Reconnect(patch);
    if target.Some? && target.value !in db.categories {
      return Err(Error(Internal, "Related category not found"));
    }
    var b := Patched(book, patch, file);
    db.books := db.books[id := b];
    r := Ok(View(b));
  }

  /** `remove`: deletes the cover file, then the row. */
  method Remove(db: Store, id: nat) returns (r: Result<()>)
    requires db.Valid()
    modifies db`books, db`files
    ensures db.Valid()
    ensures id !in old(db.books) ==> r == Err(BookNotFound) && db.files == old(db.files)
    ensures id in old(db.books) ==>
      db.files == (if old(db.books)[id].coverImage != ""
                   then old(db.files) - {old(db.books)[id].coverImage} else old(db.files))
    ensures id in old(db.books) && BookReferenced(db.cart, db.orders, db.wishlist, id) ==>
      r == Err(ForeignKeyViolation)
    ensures r.Err? ==> db.books == old(db.books)
    ensures id in old(db.books) && !BookReferenced(db.cart, db.orders, db.wishlist, id) ==>
      r == Ok(()) && db.books == old(db.books) - {id}
  {
    if id !in db.books {
      return Err(BookNotFound);
    }
    var book := db.books[id];
    if book.coverImage != "" {
      db.files := db.files - {book.coverImage};
    }
    if BookReferenced(db.cart, db.orders, db.wishlist, id) {
      return Err(ForeignKeyViolation);
    }
    db.books := db.books - {id};
    r := Ok(());
  }

  /** `findBooksByCategory`: an empty result is reported as NotFound. */
  function FindBooksByCategory(db: Store, categoryId: nat): (r: Result<map<nat, BookView>>)
    reads db
    ensures r.Err? <==> forall k :: k in db.books ==> db.books[k].categoryId != categoryId
    ensures r.Err? ==> r.error == Error(NotFound, "No books found in this category")
    ensures r.Ok? ==> forall k :: k in r.value <==> k in db.books && db.books[k].categoryId == categoryId
    ensures r.Ok? ==> forall k :: k in r.value ==> r.value[k] == View(db.books[k])
  {
    var found := map k | k in db.books && db.books[k].categoryId == categoryId :: View(db.books[k]);
    if |found| == 0 then
      assert forall k :: k in db.books && db.books[k].categoryId == categoryId ==> k in found;
      Err(Error(NotFound, "No books found in this category"))
    else
      assert exists k :: k in found;
      Ok(found)
  }

  /** `updateBookDiscount`; the discount is a percentage from 0 to 100. */
  method UpdateBookDiscount(db: Store, id: nat, discount: int) returns (r: Result<BookView>)
    requires db.Valid()
    requires 0 <= discount <= 100
    modifies db`books
    ensures db.Valid()
    ensures id !in old(db.books) ==> r == Err(BookNotFound) && db.books == old(db.books)
    ensures id in old(db.books) ==>
      var b := old(db.books)[id].(discount := discount);
      && db.books == old(db.books)[id := b]
      && r == Ok(View(b))
      && (b.price >= 0 ==> 0 <= r.value.finalPrice <= b.price)
  {
    if id !in db.books {
      return Err(BookNotFound);
    }
    var b := db.books[id].(discount := discount);
    db.books := db.books[id := b];
    r := Ok(View(b));
  }

  /** `updateAllBooksDiscount`: one `updateMany` over every row. */
  method UpdateAllBooksDiscount(db: Store, discount: int)
    requires db.Valid()
    requires 0 <= discount <= 100
    modifies db`books
    ensures db.Valid()
    ensures db.books.Keys == old(db.books).Keys
    ensures forall k :: k in db.books ==> db.books[k] == old(db.books)[k].(discount := discount)
  {
    db.books := map k | k in db.books :: db.books[k].(discount := discount);
  }

  /** `clearBookDiscount`: the returned final price is the plain price. */
  method ClearBookDiscount(db: Store, id: nat) returns (r: Result<BookView>)
    requires db.Valid()
    modifies db`books
    ensures db.Valid()
    ensures id !in old(db.books) ==> r == Err(BookNotFound) && db.books == old(db.books)
    ensures id in old(db.books) ==>
      var b := old(db.books)[id].(discount := 0);
      && db.books == old(db.books)[id := b]
      && r == Ok(View(b))
      && r.value.finalPrice == b.price
  {
    if id !in db.books {
      return Err(BookNotFound);
    }
    var b := db.books[id].(discount := 0);
    db.books := db.books[id := b];
    r := Ok(View(b));
  }

  /** `clearAllBooksDiscount`. */
  method ClearAllBooksDiscount(db: Store)
    requires db.Valid()
    modifies db`books
    ensures db.Valid()
    ensures db.books.Keys == old(db.books).Keys
    ensures forall k :: k in db.books ==> db.books[k] == old(db.books)[k].(discount := 0)
  {
    db.books := map k | k in db.books :: db.books[k].(discount := 0);
  }
}

=== FILE: cart_service.dfy ===
/**
 * The shopping cart (src/cart/cart.service.ts).
 *
 * Every operation is scoped to the calling user. A second add of a book
 * already in the cart grows the existing line, so a (user, book) pair
 * keeps at most one line (`Db.OneLinePerBook`). Stock is checked against
 * the quantity in the request only, never against the merged total.
 */
module CartService {
  import opened Outcomes
  import opened Tables
  import opened Db

  const BookNotFound := Error(NotFound, "Book not found")
  const InsufficientStock := Error(NotFound, "Insufficient stock for the requested book")
  const CartItemNotFound := Error(NotFound, "Cart item not found")

  predicate SameSlot(line: CartItem, userId: nat, bookId: nat)
  {
    line.userId == userId && line.bookId == bookId
  }

  predicate HasLine(cart: map<nat, CartItem>, userId: nat, bookId: nat)
  {
    exists k :: k in cart && SameSlot(cart[k], userId, bookId)
  }

  /** Line `id` exists and belongs to `userId` (`findFirst({ where: { id, userId } })`). */
  predicate OwnsLine(cart: map<nat, CartItem>, userId: nat, id: nat)
  {
    id in cart && cart[id].userId == userId
  }

  /** The request passes both checks of `addItem`: the book exists and its
      stock covers the requested quantity. */
  predicate AddAccepted(books: map<nat, Book>, bookId: nat, quantity: int)
  {
    bookId in books && quantity <= books[bookId].stock
  }

  /** `findAll`: exactly the user's lines, newest (largest id) first.
      The same query without `orderBy` is what `createOrderFromCart` reads. */
  function FindAll(db: Store, userId: nat): (r: seq<CartItem>)
    reads db
    requires CartKeyed(db.cart, db.nextCartId)
    ensures forall j :: 0 <= j < |r| ==> r[j].id in db.cart && db.cart[r[j].id] == r[j] && r[j].userId == userId
    ensures forall k :: k in db.cart && db.cart[k].userId == userId ==> db.cart[k] in r
    ensures forall a, b :: 0 <= a < b < |r| ==> r[a].id > r[b].id
  {
    var cart := db.cart;
    var ids := IdsNewestFirst((set k | k in cart && cart[k].userId == userId), db.nextCartId);
    var r := RowsOf(cart, ids);
    forall k | k in cart && cart[k].userId == userId ensures cart[k] in r {
      assert k in ids;
      var j :| 0 <= j < |ids| && ids[j] == k;
      assert r[j] == cart[k];
    }
    assert forall j :: 0 <= j < |ids| ==> ids[j] in ids;
    r
  }

  /** `addItem`: merges into the user's existing line for the book, or
      creates a new line. */
  method AddItem(db: Store, userId: nat, bookId: nat, quantity: int) returns (r: Result<CartItem>)
    requires db.Valid()
    requires quantity >= 1
    modifies db`cart, db`nextCartId
    ensures db.Valid()
    ensures bookId !in db.books ==> r == Err(BookNotFound)
    ensures bookId in db.books && db.books[bookId].stock < quantity ==> r == Err(InsufficientStock)
    ensures r.Err? ==> db.cart == old(db.cart) && db.nextCartId == old(db.nextCartId)
    ensures AddAccepted(db.books, bookId, quantity) ==>
      forall k :: k in old(db.cart) && SameSlot(old(db.cart)[k], userId, bookId) ==>
        var line := old(db.cart)[k].(quantity := old(db.cart)[k].quantity + quantity);
        && r == Ok(line)
        && db.cart == old(db.cart)[k := line]
        && db.nextCartId == old(db.nextCartId)
    ensures AddAccepted(db.books, bookId, quantity) && !HasLine(old(db.cart), userId, bookId) ==>
      if userId in db.users then
        var line := CartItem(old(db.nextCartId), userId, bookId, quantity);
        && r == Ok(line)
        && line.id !in old(db.cart)
        && db.cart == old(db.cart)[line.id := line]
        && db.nextCartId == old(db.nextCartId) + 1
      else
        r == Err(ForeignKeyViolation)
  {
    if bookId !in db.books {
      return Err(BookNotFound);
    }
    if db.books[bookId].stock < quantity {
      return Err(InsufficientStock);
    }
    if k :| k in db.cart && SameSlot(db.cart[k], userId, bookId) {
      var line := GrowLine(db, k, quantity);
      return Ok(line);
    }
    if userId !in db.users {
      return Err(ForeignKeyViolation);
    }
    var line := InsertLine(db, userId, bookId, quantity);
    r := Ok(line);
  }

  /** The `update` branch of `addItem`: line `k` grows by `quantity`. */
  method GrowLine(db: Store, k: nat, quantity: int) returns (line: CartItem)
    requires db.Valid() && k in db.cart && quantity >= 1
    modifies db`cart
    ensures db.Valid()
    ensures line == old(db.cart)[k].(quantity := old(db.cart)[k].quantity + quantity)
    ensures db.cart == old(db.cart)[k := line]
  {
    line := db.cart[k].(quantity := db.cart[k].quantity + quantity);
    db.cart := db.cart[k := line];
    assert OneLinePerBook(db.cart);
  }

  /** The `create` branch of `addItem`: a new line with the next id. */
  method InsertLine(db: Store, userId: nat, bookId: nat, quantity: int) returns (line: CartItem)
    requires db.Valid() && userId in db.users && bookId in db.books && quantity >= 1
    requires !HasLine(db.cart, userId, bookId)
    modifies db`cart, db`nextCartId
    ensures db.Valid()
    ensures line == CartItem(old(db.nextCartId), userId, bookId, quantity)
    ensures line.id !in old(db.cart)
    ensures db.cart == old(db.cart)[line.id := line]
    ensures db.nextCartId == old(db.nextCartId) + 1
  {
    line := CartItem(db.nextCartId, userId, bookId, quantity);
    db.cart := db.cart[line.id := line];
    db.nextCartId := db.nextCartId + 1;
  }

  /** `updateItem`: sets the quantity of one of the user's own lines. */
  method UpdateItem(db: Store, userId: nat, id: nat, quantity: int) returns (r: Result<CartItem>)
    requires db.Valid()
    requires quantity >= 1
    modifies db`cart
    ensures db.Valid()
    ensures !OwnsLine(old(db.cart), userId, id) ==> r == Err(CartItemNotFound)
    ensures OwnsLine(old(db.cart), userId, id) && db.books[old(db.cart)[id].bookId].stock < quantity ==>
      r == Err(InsufficientStock)
    ensures r.Err? ==> db.cart == old(db.cart)
    ensures OwnsLine(old(db.cart), userId, id) && quantity <= db.books[old(db.cart)[id].bookId].stock ==>
      var line := old(db.cart)[id].(quantity := quantity);
      r == Ok(line) && db.cart == old(db.cart)[id := line]
  {
    if !OwnsLine(db.cart, userId, id) {
      return Err(CartItemNotFound);
    }
    var line := db.cart[id];
    if db.books[line.bookId].stock < quantity {
      return Err(InsufficientStock);
    }
    line := line.(quantity := quantity);
    db.cart := db.cart[id := line];
    r := Ok(line);
  }

  /** `removeItem`: deletes one of the user's own lines. */
  method RemoveItem(db: Store, userId: nat, id: nat) returns (r: Result<()>)
    requires db.Valid()
    modifies db`cart
    ensures db.Valid()
    ensures !OwnsLine(old(db.cart), userId, id) ==> r == Err(CartItemNotFound) && db.cart == old(db.cart)
    ensures OwnsLine(old(db.cart), userId, id) ==> r == Ok(()) && db.cart == old(db.cart) - {id}
  {
    if !OwnsLine(db.cart, userId, id) {
      return Err(CartItemNotFound);
    }
    db.cart := db.cart - {id};
    r := Ok(());
  }

  /** The cart table after `deleteMany({ where: { userId } })`. */
  function WithoutUser(cart: map<nat, CartItem>, userId: nat): (r: map<nat, CartItem>)
    ensures forall k :: k in r <==> k in cart && cart[k].userId != userId
    ensures forall k :: k in r ==> r[k] == cart[k]
  {
    map k | k in cart && cart[k].userId != userId :: cart[k]
  }

  /** Clearing twice is the same as clearing once. */
  lemma ClearCartIdempotent(cart: map<nat, CartItem>, userId: nat)
    ensures WithoutUser(WithoutUser(cart, userId), userId) == WithoutUser(cart, userId)
  {
  }

  /** `clearCart`: removes every line of the user and no other line. */
  method ClearCart(db: Store, userId: nat)
    requires db.Valid()
    modifies db`cart
    ensures db.Valid()
    ensures db.cart == WithoutUser(old(db.cart), userId)
  {
    db.cart := WithoutUser(db.cart, userId);
  }

  /** Only the incoming quantity is checked, so two adds of the same book
      that each fit its stock are both accepted and leave one line whose
      quantity exceeds the stock. */
  method TwoAddsCanExceedStock(db: Store, userId: nat, bookId: nat, q1: int, q2: int)
      returns (first: Result<CartItem>, second: Result<CartItem>)
    requires db.Valid() && userId in db.users && bookId in db.books
    requires !HasLine(db.cart, userId, bookId)
    requires 1 <= q1 <= db.books[bookId].stock && 1 <= q2 <= db.books[bookId].stock
    requires q1 + q2 > db.books[bookId].stock
    modifies db`cart, db`nextCartId
    ensures db.Valid()
    ensures first.Ok? && second.Ok? && second.value.id == first.value.id
    ensures second.value.quantity == q1 + q2 > db.books[bookId].stock
    ensures second.value.id in db.cart && db.cart[second.value.id] == second.value
  {
    first := AddItem(db, userId, bookId, q1);
    assert first.value.id in db.cart && SameSlot(db.cart[first.value.id], userId, bookId);
    second := AddItem(db, userId, bookId, q2);
  }
}

=== FILE: category_service.dfy ===
/**
 * Categories (Backend/src/category/category.service.ts).
 *
 * `create` refuses a name that is already taken; `update` makes no such
 * check, so distinct names are kept by `create` only and are not an
 * invariant of the store.
 */
module CategoryService {
  import opened Outcomes
  import opened Tables
  import opened Db

  ghost predicate NamesUnique(categories: map<nat, Category>)
  {
    forall a, b :: a in categories && b in categories && categories[a].name == categories[b].name ==> a == b
  }

  predicate NameTaken(categories: map<nat, Category>, name: string)
  {
    exists k :: k in categories && categories[k].name == name
  }

  const CategoryNotFound := Error(NotFound, "Category not found")

  /** `create`. */
  method Create(db: Store, name: string, description: Option<string>) returns (r: Result<Category>)
    requires db.Valid()
    modifies db`categories, db`nextCategoryId
    ensures db.Valid()
    ensures NameTaken(old(db.categories), name) ==>
      r == Err(Error(BadRequest, "Category with this name already exists"))
      && db.categories == old(db.categories) && db.nextCategoryId == old(db.nextCategoryId)
    ensures !NameTaken(old(db.categories), name) ==>
      var c := Category(old(db.nextCategoryId), name, description);
      && r == Ok(c)
      && c.id !in old(db.categories)
      && db.categories == old(db.categories)[c.id := c]
      && db.nextCategoryId == old(db.nextCategoryId) + 1
    ensures NamesUnique(old(db.categories)) ==> NamesUnique(db.categories)
  {
    if NameTaken(db.categories, name) {
      return Err(Error(BadRequest, "Category with this name already exists"));
    }
    var c := Category(db.nextCategoryId, name, description);
    db.categories := db.categories[c.id := c];
    db.nextCategoryId := db.nextCategoryId + 1;
    r := Ok(c);
  }

  /** `findAll`: the whole table, unchanged. */
  function FindAll(db: Store): (r: map<nat, Category>)
    reads db
    ensures r.Keys == db.categories.Keys
    ensures forall k :: k in r ==> r[k] == db.categories[k]
  {
    db.categories
  }

  /** A category together with the ids of its books (`include: { books: true }`). */
  datatype CategoryWithBooks = CategoryWithBooks(category: Category, books: set<nat>)

  /** `findOne`. */
  function FindOne(db: Store, id: nat): (r: Result<CategoryWithBooks>)
    reads db
    ensures r.Ok? <==> id in db.categories
    ensures r.Err? ==> r.error == CategoryNotFound
    ensures r.Ok? ==> r.value.category == db.categories[id]
    ensures r.Ok? ==> forall k :: k in r.value.books <==> k in db.books && db.books[k].categoryId == id
  {
    if id !in db.categories then Err(CategoryNotFound)
    else Ok(CategoryWithBooks(db.categories[id], set k | k in db.books && db.books[k].categoryId == id))
  }

  /** The optional fields of the update DTO. */
  datatype CategoryPatch = CategoryPatch(name: Option<string>, description: Option<string>)

  function PatchCategory(c: Category, p: CategoryPatch): (r: Category)
    ensures r.id == c.id
    ensures p.name.Some? ==> r.name == p.name.value
    ensures p.name.None? ==> r.name == c.name
    ensures p.description.Some? ==> r.description == p.description
    ensures p.description.None? ==> r.description == c.description
  {
    Category(
      c.id,
      if p.name.Some? then p.name.value else c.name,
      if p.description.Some? then p.description else c.description)
  }

  /** `update`: only row `id` changes, and the new name is not checked. */
  method Update(db: Store, id: nat, patch: CategoryPatch) returns (r: Result<Category>)
    requires db.Valid()
    modifies db`categories
    ensures db.Valid()
    ensures id !in old(db.categories) ==> r == Err(CategoryNotFound) && db.categories == old(db.categories)
    ensures id in old(db.categories) ==>
      var c := PatchCategory(old(db.categories)[id], patch);
      r == Ok(c) && db.categories == old(db.categories)[id := c]
  {
    if id !in db.categories {
      return Err(CategoryNotFound);
    }
    var c := PatchCategory(db.categories[id], patch);
    db.categories := db.categories[id := c];
    r := Ok(c);
  }

  /** Because `update` skips the name check, renaming one category to
      another's name leaves two categories with the same name. */
  lemma UpdateCanDuplicateNames(categories: map<nat, Category>, a: nat, b: nat)
    requires a in categories && b in categories && a != b
    ensures !NamesUnique(categories[a := PatchCategory(categories[a], CategoryPatch(Some(categories[b].name), None))])
  {
    var after := categories[a := PatchCategory(categories[a], CategoryPatch(Some(categories[b].name), None))];
    assert after[a].name == after[b].name;
  }

  /** `remove`: refused by the store while books still reference the category. */
  method Remove(db: Store, id: nat) returns (r: Result<()>)
    requires db.Valid()
    modifies db`categories
    ensures db.Valid()
    ensures id !in old(db.categories) ==> r == Err(CategoryNotFound)
    ensures id in old(db.categories) && CategoryReferenced(db.books, id) ==> r == Err(ForeignKeyViolation)
    ensures r.Err? ==> db.categories == old(db.categories)
    ensures id in old(db.categories) && !CategoryReferenced(db.books, id) ==>
      r == Ok(()) && db.categories == old(db.categories) - {id}
  {
    if id !in db.categories {
      return Err(CategoryNotFound);
    }
    if CategoryReferenced(db.books, id) {
      return Err(ForeignKeyViolation);
    }
    db.categories := db.categories - {id};
    r := Ok(());
  }
}

=== FILE: order_service.dfy ===
/**
 * Orders (Backend/src/order/order.service.ts).
 *
 * `createOrderFromCart` turns the user's cart into a PENDING order whose
 * lines snapshot the undiscounted book prices, decrements each book's
 * stock in a loop without re-checking it, then clears the cart. `remove`
 * puts the stock back in a second loop before deleting the order. Status
 * changes never touch stock. Each call is one sequential step: the source
 * runs these writes without a transaction.
 */
module OrderService {
  import opened Outcomes
  import opened Tables
  import opened Db
  import opened OrderStock
  import CartService

  const UserNotFound := Error(NotFound, "User not found")
  const ProfileIncomplete := Error(NotFound, "User profile incomplete. Please update phone and address.")
  const CartIsEmpty := Error(NotFound, "Cart is empty")
  const OrderNotFound := Error(NotFound, "Order not found")

  /** The user has a (non-empty) phone number and a saved address. */
  predicate ProfileComplete(u: User)
  {
    Present(u.phone) && u.address.Some?
  }

  predicate HasCart(cart: map<nat, CartItem>, userId: nat)
  {
    exists k :: k in cart && cart[k].userId == userId
  }

  /** A user's cart lines name pairwise different books. */
  lemma UserLinesDistinct(db: Store, userId: nat)
    requires db.Valid()
    ensures var lines := CartService.FindAll(db, userId);
      forall i, j :: 0 <= i < j < |lines| ==> lines[i].bookId != lines[j].bookId
  {
    var lines := CartService.FindAll(db, userId);
    forall i, j | 0 <= i < j < |lines| ensures lines[i].bookId != lines[j].bookId {
      assert lines[i].id != lines[j].id;
      assert db.cart[lines[i].id] == lines[i] && db.cart[lines[j].id] == lines[j];
    }
  }

  /** The decrement loop of `createOrderFromCart`: one stock update per
      order line, with no check against the current stock. */
  method DecrementStock(db: Store, items: seq<OrderItem>)
    requires forall j :: 0 <= j < |items| ==> items[j].bookId in db.books
    modifies db`books
    ensures db.books == Destock(old(db.books), items)
  {
    ghost var before := db.books;
    var i := 0;
    while i < |items|
      invariant 0 <= i <= |items|
      invariant db.books == Destock(before, items[..i])
    {
      var item := items[i];
      var book := db.books[item.bookId];
      db.books := db.books[item.bookId := book.(stock := book.stock - item.quantity)];
      DestockStep(before, items, i);
      i := i + 1;
    }
    assert items[..|items|] == items;
  }

  /** The increment loop of `remove`: each line's quantity goes back to
      its book. */
  method IncrementStock(db: Store, items: seq<OrderItem>)
    requires forall j :: 0 <= j < |items| ==> items[j].bookId in db.books
    modifies db`books
    ensures db.books == Restock(old(db.books), items)
  {
    ghost var before := db.books;
    var i := 0;
    while i < |items|
      invariant 0 <= i <= |items|
      invariant db.books == Restock(before, items[..i])
    {
      var item := items[i];
      var book := db.books[item.bookId];
      db.books := db.books[item.bookId := book.(stock := book.stock + item.quantity)];
      RestockStep(before, items, i);
      i := i + 1;
    }
    assert items[..|items|] == items;
  }

  /** Decrementing the stock changes no key and no foreign key of the
      book table, so every invariant of the database survives it. */
  lemma DestockKeepsConsistent(
    users: map<nat, User>, categories: map<nat, Category>, books: map<nat, Book>,
    cart: map<nat, CartItem>, orders: map<nat, Order>, wishlist: set<WishKey>,
    nextUserId: nat, nextCategoryId: nat, nextBookId: nat, nextCartId: nat, nextOrderId: nat,
    items: seq<OrderItem>)
    requires Consistent(users, categories, books, cart, orders, wishlist,
                        nextUserId, nextCategoryId, nextBookId, nextCartId, nextOrderId)
    ensures Consistent(users, categories, Destock(books, items), cart, orders, wishlist,
                       nextUserId, nextCategoryId, nextBookId, nextCartId, nextOrderId)
  {
    assert BooksKeyed(Destock(books, items), nextBookId);
  }

  /** Restocking keeps every invariant of the database, for the same reason. */
  lemma RestockKeepsConsistent(
    users: map<nat, User>, categories: map<nat, Category>, books: map<nat, Book>,
    cart: map<nat, CartItem>, orders: map<nat, Order>, wishlist: set<WishKey>,
    nextUserId: nat, nextCategoryId: nat, nextBookId: nat, nextCartId: nat, nextOrderId: nat,
    items: seq<OrderItem>)
    requires Consistent(users, categories, books, cart, orders, wishlist,
                        nextUserId, nextCategoryId, nextBookId, nextCartId, nextOrderId)
    ensures Consistent(users, categories, Restock(books, items), cart, orders, wishlist,
                       nextUserId, nextCategoryId, nextBookId, nextCartId, nextOrderId)
  {
    assert BooksKeyed(Restock(books, items), nextBookId);
  }

  /** The insert of `createOrderFromCart`: the new order takes the next id. */
  method InsertOrder(db: Store, order: Order)
    requires db.Valid() && order.userId in db.users && order.id == db.nextOrderId
    requires forall j :: 0 <= j < |order.items| ==> order.items[j].bookId in db.books
    modifies db`orders, db`nextOrderId
    ensures db.Valid()
    ensures db.orders == old(db.orders)[order.id := order]
    ensures db.nextOrderId == old(db.nextOrderId) + 1
  {
    db.orders, db.nextOrderId := db.orders[order.id := order], db.nextOrderId + 1;
    assert OrdersValid(db.orders, db.users, db.books);
  }

  /** The decrement loop, with the invariants of the database kept. */
  method TakeStock(db: Store, items: seq<OrderItem>)
    requires db.Valid()
    requires forall j :: 0 <= j < |items| ==> items[j].bookId in db.books
    modifies db`books
    ensures db.Valid()
    ensures db.books == Destock(old(db.books), items)
  {
    DestockKeepsConsistent(db.users, db.categories, db.books, db.cart, db.orders, db.wishlist,
                           db.nextUserId, db.nextCategoryId, db.nextBookId, db.nextCartId, db.nextOrderId, items);
    DecrementStock(db, items);
  }

  /** The increment loop, with the invariants of the database kept. */
  method PutBackStock(db: Store, items: seq<OrderItem>)
    requires db.Valid()
    requires forall j :: 0 <= j < |items| ==> items[j].bookId in db.books
    modifies db`books
    ensures db.Valid()
    ensures db.books == Restock(old(db.books), items)
  {
    RestockKeepsConsistent(db.users, db.categories, db.books, db.cart, db.orders, db.wishlist,
                           db.nextUserId, db.nextCategoryId, db.nextBookId, db.nextCartId, db.nextOrderId, items);
    IncrementStock(db, items);
  }

  /** `createOrderFromCart`. */
  method CreateOrderFromCart(db: Store, userId: nat) returns (r: Result<Order>)
    requires db.Valid()
    modifies db`orders, db`nextOrderId, db`books, db`cart
    ensures db.Valid()
    ensures userId !in old(db.users) ==> r == Err(UserNotFound)
    ensures userId in old(db.users) && !ProfileComplete(old(db.users)[userId]) ==> r == Err(ProfileIncomplete)
    ensures userId in old(db.users) && ProfileComplete(old(db.users)[userId]) && !HasCart(old(db.cart), userId) ==>
      r == Err(CartIsEmpty)
    ensures r.Err? ==>
      && db.orders == old(db.orders) && db.nextOrderId == old(db.nextOrderId)
      && db.books == old(db.books) && db.cart == old(db.cart)
    ensures userId in old(db.users) && ProfileComplete(old(db.users)[userId]) && HasCart(old(db.cart), userId) ==>
      r.Ok?
    ensures r.Ok? ==>
      var o := r.value;
      && o.id == old(db.nextOrderId) && o.id !in old(db.orders)
      && o.userId == userId && o.status == PENDING
      && o.items == Snapshot(old(db.books), old(CartService.FindAll(db, userId)))
      && o.totalPrice == Total(o.items)
      && db.orders == old(db.orders)[o.id := o]
      && db.nextOrderId == old(db.nextOrderId) + 1
      && db.books == Destock(old(db.books), o.items)
      && db.cart == CartService.WithoutUser(old(db.cart), userId)
  {
    if userId !in db.users {
      return Err(UserNotFound);
    }
    if !ProfileComplete(db.users[userId]) {
      return Err(ProfileIncomplete);
    }
    var lines := CartService.FindAll(db, userId);
    if |lines| == 0 {
      return Err(CartIsEmpty);
    }
    assert HasCart(db.cart, userId) by {
      assert lines[0].id in db.cart && db.cart[lines[0].id].userId == userId;
    }
    assert forall j :: 0 <= j < |lines| ==> lines[j].bookId in db.books;
    var items := Snapshot(db.books, lines);
    var order := Order(db.nextOrderId, userId, PENDING, Total(items), items);
    PlaceOrder(db, order);
    r := Ok(order);
  }

  /** The writes of `createOrderFromCart` once its checks have passed:
      insert the order, decrement the stock, clear the cart. */
  method PlaceOrder(db: Store, order: Order)
    requires db.Valid() && order.userId in db.users && order.id == db.nextOrderId
    requires forall j :: 0 <= j < |order.items| ==> order.items[j].bookId in db.books
    modifies db`orders, db`nextOrderId, db`books, db`cart
    ensures db.Valid()
    ensures db.orders == old(db.orders)[order.id := order]
    ensures db.nextOrderId == old(db.nextOrderId) + 1
    ensures db.books == Destock(old(db.books), order.items)
    ensures db.cart == CartService.WithoutUser(old(db.cart), order.userId)
  {
    InsertOrder(db, order);
    TakeStock(db, order.items);
    // the cart is cleared after the stock loop, as in the source
    CartService.ClearCart(db, order.userId);
  }

  /** `findMyOrders`: the user's orders, newest first. */
  function FindMyOrders(db: Store, userId: nat): (r: seq<Order>)
    reads db
    requires OrdersKeyed(db.orders, db.nextOrderId)
    ensures forall j :: 0 <= j < |r| ==> r[j].id in db.orders && db.orders[r[j].id] == r[j] && r[j].userId == userId
    ensures forall k :: k in db.orders && db.orders[k].userId == userId ==> db.orders[k] in r
    ensures forall a, b :: 0 <= a < b < |r| ==> r[a].id > r[b].id
  {
    var orders := db.orders;
    var ids := IdsNewestFirst((set k | k in orders && orders[k].userId == userId), db.nextOrderId);
    var r := RowsOf(orders, ids);
    forall k | k in orders && orders[k].userId == userId ensures orders[k] in r {
      assert k in ids;
      var j :| 0 <= j < |ids| && ids[j] == k;
      assert r[j] == orders[k];
    }
    assert forall j :: 0 <= j < |ids| ==> ids[j] in ids;
    r
  }

  /** `findAll` (admin): every order, newest first. */
  function FindAll(db: Store): (r: seq<Order>)
    reads db
    requires OrdersKeyed(db.orders, db.nextOrderId)
    ensures forall j :: 0 <= j < |r| ==> r[j].id in db.orders && db.orders[r[j].id] == r[j]
    ensures forall k :: k in db.orders ==> db.orders[k] in r
    ensures forall a, b :: 0 <= a < b < |r| ==> r[a].id > r[b].id
  {
    var orders := db.orders;
    var ids := IdsNewestFirst(orders.Keys, db.nextOrderId);
    var r := RowsOf(orders, ids);
    forall k | k in orders ensures orders[k] in r {
      assert k in ids;
      var j :| 0 <= j < |ids| && ids[j] == k;
      assert r[j] == orders[k];
    }
    assert forall j :: 0 <= j < |ids| ==> ids[j] in ids;
    r
  }

  /** Order `id` exists and belongs to `userId` (`findFirst({ where: { id, userId } })`). */
  predicate OwnsOrder(orders: map<nat, Order>, userId: nat, id: nat)
  {
    id in orders && orders[id].userId == userId
  }

  /** `findOne`: only the owner sees the order. */
  function FindOne(db: Store, userId: nat, id: nat): (r: Result<Order>)
    reads db
    ensures r.Ok? <==> OwnsOrder(db.orders, userId, id)
    ensures r.Ok? ==> r.value == db.orders[id] && r.value.userId == userId
    ensures r.Err? ==> r.error == OrderNotFound
  {
    if OwnsOrder(db.orders, userId, id) then Ok(db.orders[id]) else Err(OrderNotFound)
  }

  /** `updateStatus`: the owner may set the status of their own order; no
      other column and no stock changes. */
  method UpdateStatus(db: Store, userId: nat, id: nat, status: OrderStatus) returns (r: Result<Order>)
    requires db.Valid()
    modifies db`orders
    ensures db.Valid()
    ensures !OwnsOrder(old(db.orders), userId, id) ==> r == Err(OrderNotFound) && db.orders == old(db.orders)
    ensures OwnsOrder(old(db.orders), userId, id) ==>
      var o := old(db.orders)[id].(status := status);
      r == Ok(o) && db.orders == old(db.orders)[id := o]
  {
    if !OwnsOrder(db.orders, userId, id) {
      return Err(OrderNotFound);
    }
    var o := db.orders[id].(status := status);
    db.orders := db.orders[id := o];
    r := Ok(o);
  }

  /** The user's cancel route (Backend/src/order/order.controller.ts): the
      only caller of `updateStatus`, always with CANCELLED. Stock stays
      decremented. */
  method CancelOwnOrder(db: Store, userId: nat, id: nat) returns (r: Result<Order>)
    requires db.Valid()
    modifies db`orders
    ensures db.Valid()
    ensures !OwnsOrder(old(db.orders), userId, id) ==> r == Err(OrderNotFound) && db.orders == old(db.orders)
    ensures OwnsOrder(old(db.orders), userId, id) ==>
      r.Ok? && r.value.status == CANCELLED && db.orders == old(db.orders)[id := r.value]
      && r.value == old(db.orders)[id].(status := CANCELLED)
  {
    r := UpdateStatus(db, userId, id, CANCELLED);
  }

  /** `remove`: every line's quantity goes back to its book, then the
      order (and its lines) is deleted. */
  method Remove(db: Store, id: nat) returns (r: Result<()>)
    requires db.Valid()
    modifies db`orders, db`books
    ensures db.Valid()
    ensures id !in old(db.orders) ==> r == Err(OrderNotFound) && db.orders == old(db.orders) && db.books == old(db.books)
    ensures id in old(db.orders) ==>
      && r == Ok(())
      && db.books == Restock(old(db.books), old(db.orders)[id].items)
      && db.orders == old(db.orders) - {id}
  {
    if id !in db.orders {
      return Err(OrderNotFound);
    }
    var items := db.orders[id].items;
    PutBackStock(db, items);
    db.orders := db.orders - {id};
    r := Ok(());
  }

  /** Placing an order and then deleting it leaves every book's stock as
      it was. */
  method CheckoutThenRemoveRestoresStock(db: Store, userId: nat)
    requires db.Valid()
    modifies db`orders, db`nextOrderId, db`books, db`cart
    ensures db.books == old(db.books)
  {
    var placed := CreateOrderFromCart(db, userId);
    if placed.Ok? {
      var o := placed.value;
      assert o.id in db.orders && db.orders[o.id] == o;
      ghost var books1 := db.books;
      var removed := Remove(db, o.id);
      assert db.books == Restock(books1, o.items);
      RestockUndoesDestock(old(db.books), o.items);
    }
  }

  /** `findAllOrdersByUser` (admin): a missing user and a user without
      orders are both NotFound. */
  function FindAllOrdersByUser(db: Store, userId: nat): (r: Result<seq<Order>>)
    reads db
    requires OrdersKeyed(db.orders, db.nextOrderId)
    ensures userId !in db.users ==> r == Err(UserNotFound)
    ensures userId in db.users && (forall k :: k in db.orders ==> db.orders[k].userId != userId) ==>
      r == Err(Error(NotFound, "No orders found for this user"))
    ensures userId in db.users && (exists k :: k in db.orders && db.orders[k].userId == userId) ==> r.Ok?
    ensures r.Ok? ==> userId in db.users && |r.value| > 0
    ensures r.Ok? ==> forall k :: k in db.orders && db.orders[k].userId == userId ==> db.orders[k] in r.value
    ensures r.Ok? ==> forall j :: 0 <= j < |r.value| ==>
      r.value[j].id in db.orders && db.orders[r.value[j].id] == r.value[j] && r.value[j].userId == userId
    ensures r.Ok? ==> forall a, b :: 0 <= a < b < |r.value| ==> r.value[a].id > r.value[b].id
  {
    if userId !in db.users then Err(UserNotFound)
    else
      var mine := FindMyOrders(db, userId);
      if |mine| == 0 then Err(Error(NotFound, "No orders found for this user"))
      else
        assert db.orders[mine[0].id].userId == userId;
        Ok(mine)
  }

  /** `updateOrderStatusByAdmin`: any status on any existing order. */
  method UpdateOrderStatusByAdmin(db: Store, id: nat, status: OrderStatus) returns (r: Result<Order>)
    requires db.Valid()
    modifies db`orders
    ensures db.Valid()
    ensures id !in old(db.orders) ==> r == Err(OrderNotFound) && db.orders == old(db.orders)
    ensures id in old(db.orders) ==>
      var o := old(db.orders)[id].(status := status);
      r == Ok(o) && db.orders == old(db.orders)[id := o]
  {
    if id !in db.orders {
      return Err(OrderNotFound);
    }
    var o := db.orders[id].(status := status);
    db.orders := db.orders[id := o];
    r := Ok(o);
  }
}

=== FILE: order_stock.dfy ===
/**
 * The value-level part of the order workflow
 * (Backend/src/order/order.service.ts): the snapshot of cart lines into
 * order lines, the order total, and what the stock loops of
 * `createOrderFromCart` and `remove` do to the book table.
 */
module OrderStock {
  import opened Tables

  /** One order line per cart line: same book, same quantity, and the
      book's current undiscounted price. */
  function Snapshot(books: map<nat, Book>, lines: seq<CartItem>): (items: seq<OrderItem>)
    requires forall j :: 0 <= j < |lines| ==> lines[j].bookId in books
    ensures |items| == |lines|
    ensures forall j :: 0 <= j < |lines| ==>
      items[j] == OrderItem(lines[j].bookId, lines[j].quantity, books[lines[j].bookId].price)
  {
    seq(|lines|, j requires 0 <= j < |lines| && lines[j].bookId in books =>
      OrderItem(lines[j].bookId, lines[j].quantity, books[lines[j].bookId].price))
  }

  /** The `reduce` that computes `totalPrice`: a left fold of
      price × quantity over the lines. */
  function Total(items: seq<OrderItem>): int
  {
    if |items| == 0 then 0
    else Total(items[..|items| - 1]) + items[|items| - 1].price * items[|items| - 1].quantity
  }

  /** The total of a concatenation is the sum of the totals, so the fold
      does not depend on where the lines are split. */
  lemma {:induction false} TotalAppend(a: seq<OrderItem>, b: seq<OrderItem>)
    ensures Total(a + b) == Total(a) + Total(b)
    decreases |b|
  {
    if |b| == 0 {
      assert a + b == a;
    } else {
      assert (a + b)[..|a + b| - 1] == a + b[..|b| - 1];
      assert (a + b)[|a + b| - 1] == b[|b| - 1];
      TotalAppend(a, b[..|b| - 1]);
    }
  }

  /** The total does not depend on the order of the lines: any
      rearrangement of them has the same total. */
  lemma {:induction false} TotalPermutation(a: seq<OrderItem>, b: seq<OrderItem>)
    requires multiset(a) == multiset(b)
    ensures Total(a) == Total(b)
    decreases |a|
  {
    if |a| == 0 {
      assert |b| == |multiset(b)| == 0;
    } else {
      var x := a[|a| - 1];
      assert a == a[..|a| - 1] + [x];
      assert x in multiset(b);
      var i :| 0 <= i < |b| && b[i] == x;
      var rest := b[..i] + b[i + 1..];
      assert b == b[..i] + ([x] + b[i + 1..]);
      assert multiset(a[..|a| - 1]) == multiset(rest) by {
        var init := a[..|a| - 1];
        assert multiset(a) == multiset(init) + multiset{x};
        assert multiset(b) == multiset(b[..i]) + multiset([x] + b[i + 1..]);
        assert multiset([x] + b[i + 1..]) == multiset{x} + multiset(b[i + 1..]);
        assert multiset(rest) == multiset(b[..i]) + multiset(b[i + 1..]);
        assert multiset(init) == multiset(a) - multiset{x};
        assert multiset(rest) == multiset(b) - multiset{x};
      }
      TotalPermutation(a[..|a| - 1], rest);
      assert Total([x]) == x.price * x.quantity by {
        assert [x][..0] == [];
      }
      TotalAppend([x], b[i + 1..]);
      TotalAppend(b[..i], [x] + b[i + 1..]);
      TotalAppend(b[..i], b[i + 1..]);
    }
  }

  /** With non-negative prices and quantities the total is non-negative. */
  lemma {:induction false} TotalNonNegative(items: seq<OrderItem>)
    requires forall j :: 0 <= j < |items| ==> items[j].price >= 0 && items[j].quantity >= 0
    ensures Total(items) >= 0
    decreases |items|
  {
    if |items| > 0 {
      var last := items[|items| - 1];
      TotalNonNegative(items[..|items| - 1]);
      assert last.price * last.quantity >= 0;
    }
  }

  /** The total quantity the lines hold of book `bookId`. */
  function Qty(items: seq<OrderItem>, bookId: nat): int
  {
    if |items| == 0 then 0
    else Qty(items[..|items| - 1], bookId)
         + (if items[|items| - 1].bookId == bookId then items[|items| - 1].quantity else 0)
  }

  predicate DistinctBooks(items: seq<OrderItem>)
  {
    forall i, j :: 0 <= i < j < |items| ==> items[i].bookId != items[j].bookId
  }

  /** With one line per book, the quantity of a book is that line's
      quantity, or 0 when no line names the book. */
  lemma {:induction false} QtyOfDistinct(items: seq<OrderItem>, bookId: nat)
    requires DistinctBooks(items)
    ensures (forall j :: 0 <= j < |items| ==> items[j].bookId != bookId) ==> Qty(items, bookId) == 0
    ensures forall j :: 0 <= j < |items| && items[j].bookId == bookId ==> Qty(items, bookId) == items[j].quantity
    decreases |items|
  {
    if |items| > 0 {
      var init := items[..|items| - 1];
      assert DistinctBooks(init);
      QtyOfDistinct(init, bookId);
    }
  }

  /** The book table after the decrement loop of `createOrderFromCart`. */
  function Destock(books: map<nat, Book>, items: seq<OrderItem>): (r: map<nat, Book>)
    ensures r.Keys == books.Keys
    ensures forall b :: b in r ==> r[b] == books[b].(stock := r[b].stock)
  {
    map b | b in books :: books[b].(stock := books[b].stock - Qty(items, b))
  }

  /** The book table after the increment loop of `remove`. */
  function Restock(books: map<nat, Book>, items: seq<OrderItem>): (r: map<nat, Book>)
    ensures r.Keys == books.Keys
    ensures forall b :: b in r ==> r[b] == books[b].(stock := r[b].stock)
  {
    map b | b in books :: books[b].(stock := books[b].stock + Qty(items, b))
  }

  /** One more line takes its quantity from its own book only: one
      iteration of the decrement loop. */
  lemma DestockStep(books: map<nat, Book>, items: seq<OrderItem>, i: nat)
    requires i < |items| && items[i].bookId in books
    ensures var prev := Destock(books, items[..i]);
      Destock(books, items[..i + 1]) ==
        prev[items[i].bookId := prev[items[i].bookId].(stock := prev[items[i].bookId].stock - items[i].quantity)]
  {
    assert items[..i + 1][..i] == items[..i];
  }

  /** One more line gives its quantity back to its own book only: one
      iteration of the increment loop. */
  lemma RestockStep(books: map<nat, Book>, items: seq<OrderItem>, i: nat)
    requires i < |items| && items[i].bookId in books
    ensures var prev := Restock(books, items[..i]);
      Restock(books, items[..i + 1]) ==
        prev[items[i].bookId := prev[items[i].bookId].(stock := prev[items[i].bookId].stock + items[i].quantity)]
  {
    assert items[..i + 1][..i] == items[..i];
  }

  /** Deleting an order puts back exactly what placing it took. */
  lemma RestockUndoesDestock(books: map<nat, Book>, items: seq<OrderItem>)
    ensures Restock(Destock(books, items), items) == books
  {
    var after := Restock(Destock(books, items), items);
    forall b | b in books ensures after[b] == books[b] {
    }
  }

  /** Stock may go negative (nothing re-checks it at checkout), but it
      stays non-negative when every cart line still fits its book's stock. */
  lemma CheckoutKeepsStockNonNegative(books: map<nat, Book>, lines: seq<CartItem>)
    requires forall j :: 0 <= j < |lines| ==> lines[j].bookId in books
    requires forall i, j :: 0 <= i < j < |lines| ==> lines[i].bookId != lines[j].bookId
    requires forall j :: 0 <= j < |lines| ==> lines[j].quantity <= books[lines[j].bookId].stock
    requires forall b :: b in books ==> books[b].stock >= 0
    ensures forall b :: b in books ==> Destock(books, Snapshot(books, lines))[b].stock >= 0
  {
    var items := Snapshot(books, lines);
    forall b | b in books ensures Destock(books, items)[b].stock >= 0 {
      QtyOfDistinct(items, b);
    }
  }
}

=== FILE: outcomes.dfy ===
/**
 * Error kinds and result values shared by every service.
 *
 * The NestJS services signal failure by throwing an HTTP exception
 * (NotFoundException, BadRequestException, ...). The model returns an
 * `Err` carrying the exception's kind and its message instead.
 */
module Outcomes {

  datatype Option<+T> = None | Some(value: T)

  /** The exception classes the services throw. `Internal` stands for an
      error the service does not catch (a Prisma error or a TypeError),
      which NestJS answers with status 500. */
  datatype ErrorKind = NotFound | BadRequest | Conflict | Unauthorized | Internal

  datatype Error = Error(kind: ErrorKind, message: string)

  datatype Result<+T> = Ok(value: T) | Err(error: Error)

  /** JavaScript truthiness of an optional string: `undefined`, `null` and
      the empty string are all falsy. */
  predicate Present(s: Option<string>)
  {
    s.Some? && s.value != ""
  }
}

=== FILE: store.dfy ===
/**
 * The database every service shares, as one in-memory store.
 *
 * The user, category, book, cart item and order tables are fields keyed
 * by the row id, and `next*Id` is each table's autoincrement counter. A
 * user's address is a column of the user row, and an order's lines are
 * the `items` sequence of the order row. `files` is the set of cover images
 * in the uploads directory, which the book service deletes from.
 *
 * `Valid()` states what the database and the services keep true: ids
 * match their keys and stay below the counters, e-mail addresses are
 * unique, every foreign key points at an existing row, and a user has
 * at most one cart line per book.
 */
module Db {
  import opened Outcomes
  import opened Tables

  ghost predicate UsersKeyed(users: map<nat, User>, next: nat)
  {
    forall k :: k in users ==> users[k].id == k && k < next
  }

  ghost predicate CategoriesKeyed(categories: map<nat, Category>, next: nat)
  {
    forall k :: k in categories ==> categories[k].id == k && k < next
  }

  ghost predicate BooksKeyed(books: map<nat, Book>, next: nat)
  {
    forall k :: k in books ==> books[k].id == k && k < next
  }

  ghost predicate CartKeyed(cart: map<nat, CartItem>, next: nat)
  {
    forall k :: k in cart ==> cart[k].id == k && k < next
  }

  ghost predicate OrdersKeyed(orders: map<nat, Order>, next: nat)
  {
    forall k :: k in orders ==> orders[k].id == k && k < next
  }

  /** The unique index on `User.email`. */
  ghost predicate EmailsUnique(users: map<nat, User>)
  {
    forall a, b :: a in users && b in users && users[a].email == users[b].email ==> a == b
  }

  ghost predicate BooksCategorized(books: map<nat, Book>, categories: map<nat, Category>)
  {
    forall k :: k in books ==> books[k].categoryId in categories
  }

  ghost predicate CartLinesValid(cart: map<nat, CartItem>, users: map<nat, User>, books: map<nat, Book>)
  {
    forall k :: k in cart ==>
      cart[k].quantity >= 1 && cart[k].userId in users && cart[k].bookId in books
  }

  /** The cart service merges a second add of the same book into the
      existing line, so a (user, book) pair has at most one line. */
  ghost predicate OneLinePerBook(cart: map<nat, CartItem>)
  {
    forall a, b ::
      a in cart && b in cart && cart[a].userId == cart[b].userId && cart[a].bookId == cart[b].bookId
      ==> a == b
  }

  ghost predicate OrdersValid(orders: map<nat, Order>, users: map<nat, User>, books: map<nat, Book>)
  {
    forall k :: k in orders ==>
      orders[k].userId in users &&
      forall j :: 0 <= j < |orders[k].items| ==> orders[k].items[j].bookId in books
  }

  ghost predicate WishlistValid(wishlist: set<WishKey>, users: map<nat, User>, books: map<nat, Book>)
  {
    forall w :: w in wishlist ==> w.userId in users && w.bookId in books
  }

  /** Rows that hold a foreign key to book `bookId`. */
  predicate BookReferenced(cart: map<nat, CartItem>, orders: map<nat, Order>, wishlist: set<WishKey>, bookId: nat)
  {
    || (exists k :: k in cart && cart[k].bookId == bookId)
    || (exists k :: k in orders && exists j :: 0 <= j < |orders[k].items| && orders[k].items[j].bookId == bookId)
    || (exists w :: w in wishlist && w.bookId == bookId)
  }

  /** Rows that hold a foreign key to category `categoryId`. */
  predicate CategoryReferenced(books: map<nat, Book>, categoryId: nat)
  {
    exists k :: k in books && books[k].categoryId == categoryId
  }

  /** Rows that hold a foreign key to user `userId`. */
  predicate UserReferenced(cart: map<nat, CartItem>, orders: map<nat, Order>, wishlist: set<WishKey>, userId: nat)
  {
    || (exists k :: k in cart && cart[k].userId == userId)
    || (exists k :: k in orders && orders[k].userId == userId)
    || (exists w :: w in wishlist && w.userId == userId)
  }

  /** The error a delete meets when another row still references the row
      (Prisma's default `Restrict` action on a required relation). */
  const ForeignKeyViolation := Error(Internal, "Foreign key constraint violated")

  /** Every invariant of the database, over the table values. */
  ghost predicate Consistent(
    users: map<nat, User>, categories: map<nat, Category>, books: map<nat, Book>,
    cart: map<nat, CartItem>, orders: map<nat, Order>, wishlist: set<WishKey>,
    nextUserId: nat, nextCategoryId: nat, nextBookId: nat, nextCartId: nat, nextOrderId: nat)
  {
    && UsersKeyed(users, nextUserId)
    && CategoriesKeyed(categories, nextCategoryId)
    && BooksKeyed(books, nextBookId)
    && CartKeyed(cart, nextCartId)
    && OrdersKeyed(orders, nextOrderId)
    && EmailsUnique(users)
    && BooksCategorized(books, categories)
    && CartLinesValid(cart, users, books)
    && OneLinePerBook(cart)
    && OrdersValid(orders, users, books)
    && WishlistValid(wishlist, users, books)
  }

  class Store {
    var users: map<nat, User>
    var categories: map<nat, Category>
    var books: map<nat, Book>
    var cart: map<nat, CartItem>
    var orders: map<nat, Order>
    var wishlist: set<WishKey>
    var files: set<string>
    var nextUserId: nat
    var nextCategoryId: nat
    var nextBookId: nat
    var nextCartId: nat
    var nextOrderId: nat

    ghost predicate Valid()
      reads this
    {
      Consistent(users, categories, books, cart, orders, wishlist,
                 nextUserId, nextCategoryId, nextBookId, nextCartId, nextOrderId)
    }

    /** An empty database; autoincrement ids start at 1. */
    constructor ()
      ensures Valid()
      ensures users == map[] && categories == map[] && books == map[]
      ensures cart == map[] && orders == map[] && wishlist == {} && files == {}
      ensures nextUserId == 1 && nextCategoryId == 1 && nextBookId == 1
      ensures nextCartId == 1 && nextOrderId == 1
    {
      users, categories, books := map[], map[], map[];
      cart, orders, wishlist, files := map[], map[], {}, {};
      nextUserId, nextCategoryId, nextBookId, nextCartId, nextOrderId := 1, 1, 1, 1, 1;
    }
  }
}

=== FILE: tables.dfy ===
/**
 * The rows of the bookstore database, one datatype per table.
 *
 * Every row carries its autoincrement `id`; the store keys each table by
 * that id. Money is held in integer cents (the `Decimal` price column has
 * two decimal places); stock is a plain `int` because nothing in the
 * services keeps it from going below zero.
 */
module Tables {
  import opened Outcomes

  datatype UserRole = USER | ADMIN

  datatype OrderStatus = PENDING | PROCESSING | COMPLETED | CANCELLED

  /** A user's saved address; also the shape of the address DTO. */
  datatype Address = Address(
    country: string,
    city: string,
    street: string,
    houseNumber: Option<string>,
    floor: Option<string>)

  /** A bcrypt digest, kept symbolically: the only operation that looks
      inside it is `Matches`, which stands for `bcrypt.compare`. */
  datatype PasswordHash = Bcrypt(plain: string)

  predicate Matches(candidate: string, h: PasswordHash)
  {
    candidate == h.plain
  }

  /** `passwordChangeAt` is a timestamp in milliseconds since the epoch. */
  datatype User = User(
    id: nat,
    email: string,
    password: PasswordHash,
    name: string,
    phone: Option<string>,
    role: UserRole,
    isActive: bool,
    passwordChangeAt: Option<int>,
    address: Option<Address>)

  /** A user as the services return it: every column except the password. */
  datatype PublicUser = PublicUser(
    id: nat,
    email: string,
    name: string,
    phone: Option<string>,
    role: UserRole,
    isActive: bool,
    passwordChangeAt: Option<int>,
    address: Option<Address>)

  datatype Category = Category(id: nat, name: string, description: Option<string>)

  /** `price` in cents, `discount` in percent, `coverImage` a file name in
      the uploads directory. */
  datatype Book = Book(
    id: nat,
    title: string,
    author: string,
    description: string,
    price: int,
    stock: int,
    discount: int,
    categoryId: nat,
    coverImage: string)

  datatype CartItem = CartItem(id: nat, userId: nat, bookId: nat, quantity: int)

  /** A line of an order: the book, how many, and the unit price in cents
      at the moment the order was placed. */
  datatype OrderItem = OrderItem(bookId: nat, quantity: int, price: int)

  datatype Order = Order(
    id: nat,
    userId: nat,
    status: OrderStatus,
    totalPrice: int,
    items: seq<OrderItem>)

  /** A wishlist row is identified by its (user, book) pair. */
  datatype WishKey = WishKey(userId: nat, bookId: nat)

  /** The ids in `ids` that are below `bound`, newest (largest) first.
      Autoincrement ids grow with `createdAt`, so this is the order of
      `orderBy: { createdAt: 'desc' }`. */
  function IdsNewestFirst(ids: set<nat>, bound: nat): (r: seq<nat>)
    ensures forall i :: i in r ==> i in ids && i < bound
    ensures forall i :: i in ids && i < bound ==> i in r
    ensures forall a, b :: 0 <= a < b < |r| ==> r[a] > r[b]
    decreases bound
  {
    if bound == 0 then []
    else
      var older := IdsNewestFirst(ids, bound - 1);
      assert forall a :: 0 <= a < |older| ==> older[a] < bound - 1 by {
        forall a | 0 <= a < |older| ensures older[a] < bound - 1 {
          assert older[a] in older;
        }
      }
      if bound - 1 in ids then [bound - 1] + older else older
  }

  /** The rows of `table` with the given ids, in the same order. */
  function RowsOf<T>(table: map<nat, T>, ids: seq<nat>): (r: seq<T>)
    requires forall i :: i in ids ==> i in table
    ensures |r| == |ids|
    ensures forall j :: 0 <= j < |ids| ==> r[j] == table[ids[j]]
  {
    seq(|ids|, j requires 0 <= j < |ids| && ids[j] in table => table[ids[j]])
  }
}

=== FILE: users_service.dfy ===
/**
 * Users (Backend/src/users/users.service.ts).
 *
 * E-mail addresses are unique (`Db.EmailsUnique`): creating a user or
 * changing an e-mail to one that another user holds is refused. Every
 * user the service returns has its password removed. Passwords are
 * stored hashed; a password change stamps `passwordChangeAt`, which the
 * guard compares with the token's issue time. Deleting one's own account
 * only deactivates it.
 */
module UsersService {
  import opened Outcomes
  import opened Tables
  import opened Db

  /** The fields of `CreateUserDto`; the role is optional and defaults to USER. */
  datatype NewUser = NewUser(
    name: string,
    email: string,
    password: string,
    phone: Option<string>,
    address: Option<Address>,
    role: Option<UserRole>)

  /** The optional fields of the update DTOs: those of `CreateUserDto`
      except the password. `None` leaves a column as it is. */
  datatype UserPatch = UserPatch(
    name: Option<string>,
    email: Option<string>,
    phone: Option<string>,
    address: Option<Address>,
    role: Option<UserRole>)

  const UserNotFound := Error(NotFound, "User not found")
  const EmailInUse := Error(BadRequest, "User with this email already exists")
  const NotInRequest := Error(Unauthorized, "User not found in request")
  const NotInDb := Error(Unauthorized, "User not found in DB")
  /** Prisma's error for an `update` whose row does not exist (HTTP 500). */
  const RecordToUpdateNotFound := Error(Internal, "Record to update not found.")

  /** `removePassword`: the user without its password column. */
  function RemovePassword(u: User): (p: PublicUser)
    ensures p.id == u.id && p.email == u.email && p.name == u.name && p.phone == u.phone
    ensures p.role == u.role && p.isActive == u.isActive
    ensures p.passwordChangeAt == u.passwordChangeAt && p.address == u.address
  {
    PublicUser(u.id, u.email, u.name, u.phone, u.role, u.isActive, u.passwordChangeAt, u.address)
  }

  /** What is returned does not depend on the password: two users that
      differ only in their password look the same. */
  lemma {:induction false} RemovePasswordForgetsPassword(u: User, v: User)
    ensures RemovePassword(u) == RemovePassword(v) <==> u == v.(password := u.password)
  {
    if RemovePassword(u) == RemovePassword(v) {
      assert u.id == v.id && u.email == v.email && u.name == v.name;
    }
  }

  predicate EmailTaken(users: map<nat, User>, email: string)
  {
    exists k :: k in users && users[k].email == email
  }

  /** The duplicate check of `updateUser` and `updateLoggedUserData`: a
      truthy new e-mail that differs from the user's own and is found in
      the table. */
  predicate EmailChangeRefused(users: map<nat, User>, id: nat, email: Option<string>)
    requires id in users
  {
    Present(email) && email.value != users[id].email && EmailTaken(users, email.value)
  }

  /** With unique e-mails, the change is refused exactly when another user
      holds the new address; keeping one's own address is never refused. */
  lemma EmailChangeRefusedIffOtherOwner(users: map<nat, User>, id: nat, email: Option<string>)
    requires id in users && EmailsUnique(users)
    ensures EmailChangeRefused(users, id, email) <==>
      Present(email) && exists k :: k in users && k != id && users[k].email == email.value
  {
    if Present(email) && exists k :: k in users && k != id && users[k].email == email.value {
      var k :| k in users && k != id && users[k].email == email.value;
      assert users[id].email != email.value;
    }
  }

  /** The address after `upsert: { create: address, update: address }`:
      a new row with the given fields when the user has none; otherwise
      the given fields overwrite the saved ones and the optional fields the
      request leaves out keep their saved values. */
  function UpsertAddress(saved: Option<Address>, a: Address): (r: Address)
    ensures r.country == a.country && r.city == a.city && r.street == a.street
    ensures a.houseNumber.Some? ==> r.houseNumber == a.houseNumber
    ensures a.floor.Some? ==> r.floor == a.floor
    ensures saved.None? ==> r == a
    ensures saved.Some? && a.houseNumber.None? ==> r.houseNumber == saved.value.houseNumber
    ensures saved.Some? && a.floor.None? ==> r.floor == saved.value.floor
  {
    match saved
    case None => a
    case Some(s) =>
      Address(a.country, a.city, a.street,
        if a.houseNumber.Some? then a.houseNumber else s.houseNumber,
        if a.floor.Some? then a.floor else s.floor)
  }

  /** The row after `update({ data: { ...userData, address upsert } })`. */
  function ApplyPatch(u: User, p: UserPatch): (r: User)
    ensures r.id == u.id && r.password == u.password
    ensures r.isActive == u.isActive && r.passwordChangeAt == u.passwordChangeAt
    ensures r.email == (if p.email.Some? then p.email.value else u.email)
    ensures p.name.Some? ==> r.name == p.name.value
    ensures p.name.None? ==> r.name == u.name
    ensures p.phone.Some? ==> r.phone == p.phone
    ensures p.phone.None? ==> r.phone == u.phone
    ensures p.role.Some? ==> r.role == p.role.value
    ensures p.role.None? ==> r.role == u.role
    ensures p.address.None? ==> r.address == u.address
    ensures p.address.Some? ==> r.address.Some? && r.address.value == UpsertAddress(u.address, p.address.value)
  {
    User(
      u.id,
      if p.email.Some? then p.email.value else u.email,
      u.password,
      if p.name.Some? then p.name.value else u.name,
      if p.phone.Some? then p.phone else u.phone,
      if p.role.Some? then p.role.value else u.role,
      u.isActive,
      u.passwordChangeAt,
      if p.address.Some? then Some(UpsertAddress(u.address, p.address.value)) else u.address)
  }

  /** An empty patch leaves the row as it is. */
  lemma EmptyPatchIsIdentity(u: User)
    ensures ApplyPatch(u, UserPatch(None, None, None, None, None)) == u
  {
  }

  /** Writing row `id` back with an e-mail that passed the duplicate check
      keeps the e-mail index unique. */
  lemma {:induction false} PatchKeepsEmailsUnique(users: map<nat, User>, id: nat, p: UserPatch)
    requires id in users && EmailsUnique(users)
    requires p.email != Some("") && !EmailChangeRefused(users, id, p.email)
    ensures EmailsUnique(users[id := ApplyPatch(users[id], p)])
  {
    var users' := users[id := ApplyPatch(users[id], p)];
    var e := users'[id].email;
    assert e == users[id].email || !EmailTaken(users, e);
    forall a, b | a in users' && b in users' && users'[a].email == users'[b].email
      ensures a == b
    {
      assert a != id ==> users'[a] == users[a];
      assert b != id ==> users'[b] == users[b];
    }
  }

  /** `createUser`: the password is stored hashed, the address only when
      one is given; the answer carries no password. */
  method CreateUser(db: Store, dto: NewUser) returns (r: Result<PublicUser>)
    requires db.Valid()
    requires |dto.password| >= 6 && 2 <= |dto.name| <= 50
    modifies db`users, db`nextUserId
    ensures db.Valid()
    ensures EmailTaken(old(db.users), dto.email) ==>
      r == Err(EmailInUse) && db.users == old(db.users) && db.nextUserId == old(db.nextUserId)
    ensures !EmailTaken(old(db.users), dto.email) ==>
      var u := User(old(db.nextUserId), dto.email, Bcrypt(dto.password), dto.name, dto.phone,
                    if dto.role.Some? then dto.role.value else USER, true, None, dto.address);
      && u.id !in old(db.users)
      && db.users == old(db.users)[u.id := u]
      && db.nextUserId == old(db.nextUserId) + 1
      && r == Ok(RemovePassword(u))
      && Matches(dto.password, u.password)
  {
    if EmailTaken(db.users, dto.email) {
      return Err(EmailInUse);
    }
    var role := if dto.role.Some? then dto.role.value else USER;
    var u := User(db.nextUserId, dto.email, Bcrypt(dto.password), dto.name, dto.phone, role, true, None, dto.address);
    db.users := db.users[u.id := u];
    db.nextUserId := db.nextUserId + 1;
    r := Ok(RemovePassword(u));
  }

  /** `findAll`: every user without its password; an empty table is
      reported as NotFound. */
  function FindAll(db: Store): (r: Result<map<nat, PublicUser>>)
    reads db
    ensures r.Err? <==> |db.users| == 0
    ensures r.Err? ==> r.error == Error(NotFound, "No users found")
    ensures r.Ok? ==> r.value.Keys == db.users.Keys
    ensures r.Ok? ==> forall k :: k in r.value ==> r.value[k] == RemovePassword(db.users[k])
  {
    if |db.users| == 0 then Err(Error(NotFound, "No users found"))
    else Ok(map k | k in db.users :: RemovePassword(db.users[k]))
  }

  /** `findOne`. */
  function FindOne(db: Store, id: nat): (r: Result<PublicUser>)
    reads db
    ensures r.Ok? <==> id in db.users
    ensures r.Ok? ==> r.value == RemovePassword(db.users[id])
    ensures r.Err? ==> r.error == UserNotFound
  {
    if id in db.users then Ok(RemovePassword(db.users[id])) else Err(UserNotFound)
  }

  /** `updateUser` (admin). */
  method UpdateUser(db: Store, id: nat, patch: UserPatch) returns (r: Result<PublicUser>)
    requires db.Valid()
    requires patch.email != Some("")
    modifies db`users
    ensures db.Valid()
    ensures id !in old(db.users) ==> r == Err(UserNotFound)
    ensures id in old(db.users) && EmailChangeRefused(old(db.users), id, patch.email) ==> r == Err(EmailInUse)
    ensures r.Err? ==> db.users == old(db.users)
    ensures id in old(db.users) && !EmailChangeRefused(old(db.users), id, patch.email) ==>
      var u := ApplyPatch(old(db.users)[id], patch);
      r == Ok(RemovePassword(u)) && db.users == old(db.users)[id := u]
  {
    if id !in db.users {
      return Err(UserNotFound);
    }
    if EmailChangeRefused(db.users, id, patch.email) {
      return Err(EmailInUse);
    }
    PatchKeepsEmailsUnique(db.users, id, patch);
    var u := ApplyPatch(db.users[id], patch);
    db.users := db.users[id := u];
    r := Ok(RemovePassword(u));
  }

  /** `deleteUser`: a hard delete, refused while other rows reference the user. */
  method DeleteUser(db: Store, id: nat) returns (r: Result<()>)
    requires db.Valid()
    modifies db`users
    ensures db.Valid()
    ensures id !in old(db.users) ==> r == Err(UserNotFound)
    ensures id in old(db.users) && UserReferenced(db.cart, db.orders, db.wishlist, id) ==>
      r == Err(ForeignKeyViolation)
    ensures r.Err? ==> db.users == old(db.users)
    ensures id in old(db.users) && !UserReferenced(db.cart, db.orders, db.wishlist, id) ==>
      r == Ok(()) && db.users == old(db.users) - {id}
  {
    if id !in db.users {
      return Err(UserNotFound);
    }
    if UserReferenced(db.cart, db.orders, db.wishlist, id) {
      return Err(ForeignKeyViolation);
    }
    db.users := db.users - {id};
    r := Ok(());
  }

  /** `getLoggedUserData`: the user the guard attached, re-read from the
      table. */
  function GetLoggedUserData(db: Store, infUser: nat): (r: Result<PublicUser>)
    reads db
    ensures r.Ok? <==> infUser in db.users
    ensures r.Ok? ==> r.value == RemovePassword(db.users[infUser])
    ensures r.Err? ==> r.error == NotInDb
  {
    if infUser in db.users then Ok(RemovePassword(db.users[infUser])) else Err(NotInDb)
  }

  /** The checks of `updateLoggedUserPassword` on the request alone. */
  function PasswordRequestError(infUser: Option<nat>, newPassword: Option<string>): (r: Option<Error>)
    ensures infUser.None? ==> r == Some(NotInRequest)
    ensures infUser.Some? && !Present(newPassword) ==> r == Some(Error(BadRequest, "New password is required"))
    ensures infUser.Some? && Present(newPassword) && |newPassword.value| < 6 ==>
      r == Some(Error(BadRequest, "Password must be at least 6 characters long"))
    ensures r.None? <==> infUser.Some? && Present(newPassword) && |newPassword.value| >= 6
  {
    if infUser.None? then Some(NotInRequest)
    else if !Present(newPassword) then Some(Error(BadRequest, "New password is required"))
    else if |newPassword.value| < 6 then Some(Error(BadRequest, "Password must be at least 6 characters long"))
    else None
  }

  /** `updateLoggedUserPassword`. `now` is the clock reading, in
      milliseconds, that `new Date()` stores. A missing row makes the
      password comparison fail on `null` (HTTP 500). */
  method UpdateLoggedUserPassword(db: Store, infUser: Option<nat>, newPassword: Option<string>, now: int)
    returns (r: Result<()>)
    requires db.Valid()
    modifies db`users
    ensures db.Valid()
    ensures PasswordRequestError(infUser, newPassword).Some? ==> r == Err(PasswordRequestError(infUser, newPassword).value)
    ensures PasswordRequestError(infUser, newPassword).None? && infUser.value !in old(db.users) ==>
      r.Err? && r.error.kind == Internal
    ensures PasswordRequestError(infUser, newPassword).None? && infUser.value in old(db.users) &&
            Matches(newPassword.value, old(db.users)[infUser.value].password) ==>
      r == Err(Error(BadRequest, "New password cannot be the same as the old password"))
    ensures r.Err? ==> db.users == old(db.users)
    ensures r.Ok? ==>
      var id := infUser.value;
      var u := old(db.users)[id].(password := Bcrypt(newPassword.value), passwordChangeAt := Some(now));
      && id in old(db.users)
      && !Matches(newPassword.value, old(db.users)[id].password)
      && db.users == old(db.users)[id := u]
      && Matches(newPassword.value, db.users[id].password)
      && !(exists old_plain :: Matches(old_plain, old(db.users)[id].password) && Matches(old_plain, db.users[id].password))
    ensures PasswordRequestError(infUser, newPassword).None? && infUser.value in old(db.users) &&
            !Matches(newPassword.value, old(db.users)[infUser.value].password) ==>
      r.Ok?
  {
    var err := PasswordRequestError(infUser, newPassword);
    if err.Some? {
      return Err(err.value);
    }
    var id := infUser.value;
    if id !in db.users {
      return Err(Error(Internal, "Cannot read properties of null (reading 'password')"));
    }
    var pw := newPassword.value;
    if Matches(pw, db.users[id].password) {
      return Err(Error(BadRequest, "New password cannot be the same as the old password"));
    }
    var u := db.users[id].(password := Bcrypt(pw), passwordChangeAt := Some(now));
    db.users := db.users[id := u];
    r := Ok(());
  }

  /** `updateLoggedUserData`: the same update as `updateUser`, for the
      caller's own row; a duplicate e-mail is a Conflict here. */
  method UpdateLoggedUserData(db: Store, infUser: Option<nat>, patch: UserPatch) returns (r: Result<PublicUser>)
    requires db.Valid()
    requires patch.email != Some("")
    modifies db`users
    ensures db.Valid()
    ensures infUser.None? ==> r == Err(NotInRequest)
    ensures infUser.Some? && infUser.value !in old(db.users) ==> r == Err(NotInDb)
    ensures infUser.Some? && infUser.value in old(db.users) && EmailChangeRefused(old(db.users), infUser.value, patch.email) ==>
      r == Err(Error(Conflict, "Email already exists"))
    ensures r.Err? ==> db.users == old(db.users)
    ensures infUser.Some? && infUser.value in old(db.users) && !EmailChangeRefused(old(db.users), infUser.value, patch.email) ==>
      var u := ApplyPatch(old(db.users)[infUser.value], patch);
      r == Ok(RemovePassword(u)) && db.users == old(db.users)[infUser.value := u]
  {
    if infUser.None? {
      return Err(NotInRequest);
    }
    var id := infUser.value;
    if id !in db.users {
      return Err(NotInDb);
    }
    if EmailChangeRefused(db.users, id, patch.email) {
      return Err(Error(Conflict, "Email already exists"));
    }
    PatchKeepsEmailsUnique(db.users, id, patch);
    var u := ApplyPatch(db.users[id], patch);
    db.users := db.users[id := u];
    r := Ok(RemovePassword(u));
  }

  /** `deleteLoggedUserAccount`: a soft delete that clears `isActive` and
      nothing else. */
  method DeleteLoggedUserAccount(db: Store, infUser: Option<nat>) returns (r: Result<PublicUser>)
    requires db.Valid()
    modifies db`users
    ensures db.Valid()
    ensures infUser.None? ==> r == Err(NotInRequest)
    ensures infUser.Some? && infUser.value !in old(db.users) ==> r == Err(RecordToUpdateNotFound)
    ensures r.Err? ==> db.users == old(db.users)
    ensures infUser.Some? && infUser.value in old(db.users) ==>
      var u := old(db.users)[infUser.value].(isActive := false);
      r == Ok(RemovePassword(u)) && db.users == old(db.users)[infUser.value := u]
  {
    if infUser.None? {
      return Err(NotInRequest);
    }
    var id := infUser.value;
    if id !in db.users {
      return Err(RecordToUpdateNotFound);
    }
    var u := db.users[id].(isActive := false);
    db.users := db.users[id := u];
    r := Ok(RemovePassword(u));
  }
}

=== FILE: wishlist_service.dfy ===
/**
 * The wishlist (src/wishlist/wishlist.service.ts).
 *
 * A wishlist row is identified by its (user, book) pair, the unique
 * index `userId_bookId`; the table is the set of those pairs, so a pair
 * is either on the list once or not at all. `create` wraps its whole body
 * in a catch-all, so each of its failures is reported as the same
 * Conflict.
 */
module WishlistService {
  import opened Outcomes
  import opened Tables
  import opened Db

  const AlreadyInWishlist := Error(Conflict, "This book is already in the wishlist")
  const ItemNotFound := Error(NotFound, "Wishlist item not found")

  /** `create`: a missing book, a pair already on the list and a failing
      insert (the user row is missing) all end in the catch-all. */
  method Create(db: Store, userId: nat, bookId: nat) returns (r: Result<WishKey>)
    requires db.Valid()
    modifies db`wishlist
    ensures db.Valid()
    ensures r.Err? ==> r.error == AlreadyInWishlist && db.wishlist == old(db.wishlist)
    ensures r.Ok? <==> bookId in db.books && userId in db.users && WishKey(userId, bookId) !in old(db.wishlist)
    ensures r.Ok? ==> r.value == WishKey(userId, bookId) && db.wishlist == old(db.wishlist) + {r.value}
  {
    if bookId !in db.books {
      return Err(AlreadyInWishlist);
    }
    var key := WishKey(userId, bookId);
    if key in db.wishlist {
      return Err(AlreadyInWishlist);
    }
    if userId !in db.users {
      return Err(AlreadyInWishlist);
    }
    db.wishlist := db.wishlist + {key};
    r := Ok(key);
  }

  /** `findAll`: exactly the caller's entries. */
  function FindAll(db: Store, userId: nat): (r: set<WishKey>)
    reads db
    ensures forall w :: w in r <==> w in db.wishlist && w.userId == userId
  {
    set w | w in db.wishlist && w.userId == userId
  }

  /** `findOne`: the entry for the pair, looked up by the unique index. */
  function FindOne(db: Store, bookId: nat, userId: nat): (r: Result<WishKey>)
    reads db
    ensures r.Ok? <==> WishKey(userId, bookId) in db.wishlist
    ensures r.Ok? ==> r.value.userId == userId && r.value.bookId == bookId
    ensures r.Err? ==> r.error == ItemNotFound
  {
    var key := WishKey(userId, bookId);
    if key in db.wishlist then Ok(key) else Err(ItemNotFound)
  }

  /** `remove`: deletes only the caller's entry for the book. */
  method Remove(db: Store, bookId: nat, userId: nat) returns (r: Result<()>)
    requires db.Valid()
    modifies db`wishlist
    ensures db.Valid()
    ensures WishKey(userId, bookId) !in old(db.wishlist) ==> r == Err(ItemNotFound) && db.wishlist == old(db.wishlist)
    ensures WishKey(userId, bookId) in old(db.wishlist) ==>
      r == Ok(()) && db.wishlist == old(db.wishlist) - {WishKey(userId, bookId)}
  {
    var key := WishKey(userId, bookId);
    if key !in db.wishlist {
      return Err(ItemNotFound);
    }
    db.wishlist := db.wishlist - {key};
    r := Ok(());
  }

  /** Adding a book that is not on the list and removing it again leaves
      the wishlist as it was; when the pair was already there, the add
      fails and the remove takes it off. */
  method CreateThenRemove(db: Store, userId: nat, bookId: nat)
    requires db.Valid()
    modifies db`wishlist
    ensures db.Valid()
    ensures WishKey(userId, bookId) !in old(db.wishlist) ==> db.wishlist == old(db.wishlist)
    ensures WishKey(userId, bookId) in old(db.wishlist) ==> db.wishlist == old(db.wishlist) - {WishKey(userId, bookId)}
  {
    var added := Create(db, userId, bookId);
    var removed := Remove(db, bookId, userId);
    if added.Ok? {
      assert db.wishlist == old(db.wishlist);
    }
  }
}
